=== FILE: README.md ===
# VMU931 driver core in Dafny

This project models the byte- and bit-level logic of the VMU931 IMU driver
and proves properties of it. The logic falls into three parts.

- **Status and configuration codec.** This is the serial driver
  `VMU931Driver` in `vmu931_driver.py`. The module `Status` decodes a
  7-byte status payload (`_parse_status_message`) into a `Config`. It also
  gives the inverse layout, `EncodeStatus`. The module `Commands` models
  `send_message`'s argument checks and the `var<digit>` resolution setters.
  It models `set_configuration` as the list of ASCII commands written to an
  open port. `Commands.Execute` is an independent reading of the device's
  command grammar, used to state what those commands achieve.
- **Sequential frame reader.** This is `get_message` and
  `get_configuration` in `vmu931_driver.py`, in the module `SerialReader`.
  The port is a finite byte stream consumed from the front. Reading past its
  end is the IndexError that `port.read()[0]` raises on an empty read. The
  retry loop is a recursive function over the remaining stream.
- **Buffered frame scanner.** This is `get_vmu_packet` in
  `vmu931_cdc_driver.py`, in the module `CdcScanner`. Chunks read from the
  USB endpoint are appended to a buffer, and each pass scans the buffer for
  a frame. The model keeps the code's peculiarities:
  - `enumerate` walks the buffer object as it was when the pass began (the
    snapshot).
  - A cut rebinds `data`, so `len(data[i:])`, `data[i + 1]` and so on read
    the cut buffer at the snapshot's indices.
  - A terminator index past the end wipes the buffer.
  - An unknown message type raises KeyError only once a terminated frame
    is seen.
  - The loop gives up after 5000 reads.

  Python's negative indexing and slice clamping (`Bytes.PyIndex`,
  `Bytes.PySlice`) are modelled as they are. So a length byte below 4 needs
  no precondition.

`Frames` holds the shared parts:
- the wire frame (start marker 0x01, length, tag, payload, terminator 0x04);
- the `message_types` table;
- the `>Ifff` sample unpacking.

The three floats are kept as their raw 4-byte words. Only the timestamp is
decoded as a number.

## Behaviour worth knowing

- **Status example.** The status payload `07 20 01 00 00 00 02` decodes
  with all three sensors enabled, because 0x07 sets bits 2, 1 and 0. It
  has gyro resolution 500, no accelerometer resolution, low output on
  (bit 0 of byte 2) and only gyro streaming (`Status.ParseStatusExample`).
- **Resolution commands are always written.** `set_configuration` writes
  the two resolution commands on every call, even when the streaming
  flags already agree (`Commands.SameStreamsOnlyResolutions`).
- **Resolution priority.** The gyro resolution comes from bit 7 (2000),
  bit 6 (1000), bit 5 (500) or bit 4 (250) of the resolution byte, and the
  highest set bit wins. A nibble with several bits set is accepted.
- **Short frames in the CDC scanner.** When a frame's terminator index
  lies past the end of the buffer, the whole buffer is wiped and the pass
  ends (`CdcScanner.WipeEndsPass`).
- **Frames that are not taken.** A frame with another tag, or with a
  terminator other than 0x04, cuts the buffer at its terminator index. The
  byte at that index is kept (`CdcScanner.ExamineMeaning`).

## Model

| member | source | states |
|---|---|---|
| Frames.UnpackSample | vmu931_driver.py:116 | `struct.unpack(">Ifff", message[:16])` raises struct.error exactly when fewer than 16 bytes are given; otherwise the sample's encoding is the first 16 bytes and its timestamp is their big-endian u32 |
| Frames.UnpackPackSample | vmu931_driver.py:116 | unpacking the 16 bytes of a sample, whatever follows them, gives the sample back |
| Status.GyroResolutionOf | vmu931_driver.py:161-170 | the gyro resolution is 2000, 1000, 500 or 250 exactly when the highest set bit of the resolution byte's high nibble is bit 7, 6, 5 or 4, and None exactly when that nibble is zero |
| Status.AccelResolutionOf | vmu931_driver.py:172-181 | the accelerometer resolution is 16, 8, 4 or 2 exactly when the highest set bit of the low nibble is bit 3, 2, 1 or 0, and None exactly when the low nibble is zero |
| Status.ParseStatus | vmu931_driver.py:153-206 | a payload shorter than 7 bytes raises struct.error; otherwise the enable flags are bits 2, 1, 0 of byte 0, low output is bit 0 of byte 2, the gyro and accelerometer resolutions are those `GyroResolutionOf` and `AccelResolutionOf` give for byte 1 (the highest set bit of the high, respectively low, nibble; None for a zero nibble), and heading, euler, magnetometer, quaternion, gyro and accelerometer streaming are bits 6, 4, 3, 2, 1, 0 of the big-endian word in bytes 3..6 |
| Status.EnableBitsOnly | vmu931_driver.py:155-159 | two payloads that differ only in bits 3..7 of byte 0 decode to the same configuration |
| Status.NibblesIndependent | vmu931_driver.py:161-181 | the gyro resolution depends only on the high nibble of the resolution byte and the accelerometer resolution only on the low nibble |
| Status.StreamWordIgnoresOtherBits | vmu931_driver.py:185-190 | two payloads whose streaming words agree in bits 0..4 and 6 (and whose first three bytes agree) decode to the same configuration: bit 5 and bits 7 and up have no effect |
| Status.ParseEncodeStatus | vmu931_driver.py:153-206 | every configuration a status payload can describe is decoded back exactly from its canonical 7-byte payload |
| Status.ParseStatusExample | vmu931_driver.py:155-190 | the payload 07 20 01 00 00 00 02 decodes to all sensors enabled, gyro resolution 500, no accelerometer resolution, low output on and only gyro streaming |
| Commands.DriverMessagesAccepted | vmu931_driver.py:142-149 | every message the driver writes (the status request `vars`, each `var<digit>` resolution command and the six streaming toggles) passes `send_message`'s checks on an open port and is appended unchanged, so none of the driver's own writes raises ValueError or UnicodeEncodeError |
| Commands.AskForStatus | vmu931_driver.py:123-124 | asking for the status never raises and appends exactly the one request `vars` |
| Commands.SetGyroResolution | vmu931_driver.py:128-131 | succeeds exactly for an open port and a resolution among 250, 500, 1000, 2000, otherwise raises ValueError; on success exactly one command is appended and the device's reading of it sets the gyro resolution to the requested value |
| Commands.SetAccelerometerResolution | vmu931_driver.py:135-138 | succeeds exactly for an open port and a resolution among 2, 4, 8, 16, otherwise raises ValueError; on success exactly one command is appended and it sets the accelerometer resolution to the requested value |
| Commands.SetConfiguration | vmu931_driver.py:68-86 | a missing configuration raises ValueError with nothing written; a bad gyro resolution raises with nothing written, a bad accelerometer resolution after the gyro command; otherwise the gyro and accelerometer commands come first, followed by the streaming toggles |
| Commands.TogglesExactlyDiffering | vmu931_driver.py:75-86 | each of `vara`, `varg`, `varc`, `varq`, `vare`, `varh` is written exactly when its streaming flag differs between the current and the new configuration |
| Commands.TogglesOrdered | vmu931_driver.py:75-86 | the toggles written follow the order a, g, c, q, e, h strictly, so none is written twice |
| Commands.TogglesReachDesired | vmu931_driver.py:75-86 | executing the toggles on a device that streams as the current configuration leaves it streaming as the new one, with its resolutions untouched |
| Commands.SetConfigurationReachesDesired | vmu931_driver.py:68-86 | for valid resolutions the call does not raise, and a device that streams as the current configuration ends with exactly the new configuration's resolutions and streaming flags |
| Commands.BasicConfigurationApplies | vmu931_driver.py:11-33 | whatever configuration the device reports, applying `basic_configuration` never raises, writes `var3` and `var4` before the toggles, and leaves the device at gyro resolution 2000, accelerometer resolution 2 and gyro streaming only |
| Commands.SameStreamsOnlyResolutions | vmu931_driver.py:73-86 | when the streaming flags already agree, exactly the two resolution commands are written |
| Commands.ParsedResolutionsAccepted | vmu931_driver.py:128-138 | every resolution `_parse_status_message` produces is accepted by the setters, so applying a decoded configuration with both resolutions present does not raise |
| SerialReader.FirstStart | vmu931_driver.py:97-98 | there is no start marker exactly when the skip loop runs out of stream; otherwise it stops at the first 0x01 and skips only bytes other than 0x01 |
| SerialReader.ReadAttempt | vmu931_driver.py:97-106 | a read pass fails only with IndexError; a successful one splits the stream into bytes without a start marker, a frame whose payload has its declared size (L - 4 bytes for a length byte L >= 4, none below, as `Frames.PayloadLength` states), and the shorter rest of the stream |
| SerialReader.ReadAttemptOfLayout | vmu931_driver.py:97-106 | a stream laid out as junk without a start marker, a well-sized frame and anything else is read as exactly those three parts |
| SerialReader.FrameOfEncoding | vmu931_driver.py:97-106 | the framing is unambiguous: two well-sized frames whose encodings begin the same stream are the same frame and leave the same rest |
| SerialReader.FindFrame | vmu931_driver.py:97-113 | the retry loop makes at least one pass and fails only with IndexError; a pass that runs out of stream ends the loop at once, after that one pass, with IndexError; a frame it returns has terminator 0x04 and the wanted tag, has its declared size and occurs contiguously in the stream |
| SerialReader.FindFrameAccepts | vmu931_driver.py:97-113 | a leading accepted frame ends the loop on its first pass |
| SerialReader.FindFrameSkips | vmu931_driver.py:109-113 | a leading frame with a bad terminator or another tag costs one pass and the search continues on what follows it |
| SerialReader.GetMessage | vmu931_driver.py:90-119 | an unknown type raises ValueError before reading; for a known type the result is IndexError exactly when the stream ends before an accepted frame, and once one is found a sample is returned exactly when its payload holds at least 16 bytes (struct.error otherwise); a returned sample is the first 16 payload bytes of the first accepted frame, and its timestamp is their first four bytes read big-endian |
| SerialReader.GetMessageOfSampleFrame | vmu931_driver.py:90-119 | round trip: a sample framed with the requested type's tag, after junk without a start marker, is read back unchanged |
| SerialReader.GetConfiguration | vmu931_driver.py:37-64 | exactly one `vars` request is written per pass of the read loop, as many as the passes the frame search makes; the result is IndexError exactly when the stream ends before a terminated status frame, and once one is found a configuration is returned exactly when its payload holds at least 7 bytes (struct.error otherwise); a result is the decoding of that frame's payload |
| SerialReader.GetConfigurationOfStatusFrame | vmu931_driver.py:37-64 | round trip: the status frame of a describable configuration is decoded back to it after a single status request |
| SerialReader.GetConfigurationSkips | vmu931_driver.py:55-60 | a frame that is not a terminated status frame costs one more `vars` request and is otherwise skipped |
| CdcScanner.Examine | vmu931_cdc_driver.py:68-89 | at a start marker the body returns a valid sample only for a known type, raises KeyError only for an unknown type and struct.error only for a known one, and cuts only when the terminator index lies inside the buffer |
| CdcScanner.ExamineMeaning | vmu931_cdc_driver.py:68-89 | the buffer is wiped exactly when the terminator index is past its end; a frame is taken or raises exactly when the byte there is 0x04 and (for a known type) the tag matches; a taken frame holds the sample; a raise for a known type means fewer than 16 payload bytes; a cut keeps the non-empty suffix that starts with the byte at the terminator index |
| CdcScanner.ExamineFrame | vmu931_cdc_driver.py:68-89 | for a well-sized frame in the buffer: an accepted one is unpacked, a terminated one of an unknown type raises KeyError, and any other is cut so that its terminator byte and what follows remain |
| CdcScanner.ScanFrom | vmu931_cdc_driver.py:66-90 | a pass of the loop as written lets only KeyError (unknown type) and struct.error (known type) escape, and returns only valid samples of a known type |
| CdcScanner.CutStep | vmu931_cdc_driver.py:84-90 | after a cut the pass continues over the snapshot at the next index, reading the cut buffer |
| CdcScanner.WipeEndsPass | vmu931_cdc_driver.py:69-77 | a terminator index past the end of the buffer ends the pass with an empty buffer, under either loop |
| CdcScanner.ScanFromSuffix | vmu931_cdc_driver.py:76-89 | what a pass as written leaves for the next one is a suffix of the buffer, so the buffer never grows during a pass |
| CdcScanner.ScanFromFound | vmu931_cdc_driver.py:66-83 | every sample the pass as written returns was unpacked from a frame in (a suffix of) the buffer with terminator 0x04 at its terminator index, the wanted tag and the payload between them |
| CdcScanner.ScanFixed | vmu931_cdc_driver.py:66-90 | the corrected pass lets only KeyError and struct.error escape and returns only valid samples of a known type |
| CdcScanner.ScanFixedFound | vmu931_cdc_driver.py:66-83 | every sample the corrected pass returns was unpacked from a terminated frame with the wanted tag at a start marker of the buffer |
| CdcScanner.ScanPass | vmu931_cdc_driver.py:61-90 | one pass over the buffer, under either loop, lets only KeyError (unknown type) and struct.error (known type) escape and returns only valid samples of a known type |
| CdcScanner.ScanPassFound | vmu931_cdc_driver.py:66-83 | under either loop, a sample a pass returns was unpacked from a frame with terminator 0x04 at its terminator index and the wanted tag, in a suffix of the buffer |
| CdcScanner.ScanPassKeeps | vmu931_cdc_driver.py:66-68 | a buffer without a start marker, or of at most 20 bytes, is kept whole by a pass |
| CdcScanner.ScanPassSuffix | vmu931_cdc_driver.py:76-89 | under either loop what a pass keeps is a suffix of the buffer |
| CdcScanner.PassGrowth | vmu931_cdc_driver.py:59-89 | the step for one read: if the buffer before a read holds at most 64 n bytes and the read delivers at most 64, the buffer the pass keeps holds at most 64 (n + 1) bytes |
| CdcScanner.LeadingFrame | vmu931_cdc_driver.py:66-83 | a buffer of more than 20 bytes that begins with an accepted well-sized frame yields that frame's sample, or struct.error when its payload is shorter than 16 bytes |
| CdcScanner.Poll | vmu931_cdc_driver.py:51-90 | the outer loop raises only KeyError (unknown type), struct.error (known type) or the reader's error when the device stops delivering before 5000 reads, and returns only valid samples of a known type; it returns None only once the counter has passed 5000, so only when the device delivered at least 5000 reads |
| CdcScanner.PollFound | vmu931_cdc_driver.py:51-83 | a packet returned by the outer loop was found after some read k below 5000: it was unpacked from a frame with terminator 0x04 and the wanted tag, in a suffix of the bytes held before the loop followed by all reads up to and including read k |
| CdcScanner.GetVmuPacket | vmu931_cdc_driver.py:44-90 | without a device the result is None; the scan looks for the type's `message_types` tag (`CdcScanner.WantedTag`), so KeyError means the type is unknown, struct.error that it is known, and a packet is a valid sample of a known type; with a device, None is returned only after at least 5000 reads |
| CdcScanner.GetVmuPacketFound | vmu931_cdc_driver.py:44-83 | a packet returned by `get_vmu_packet` comes from a frame with terminator 0x04 and the requested type's `message_types` tag, lying in a suffix of the bytes of the reads up to and including some read k below 5000 |
| CdcScanner.PollReadsAtMost | vmu931_cdc_driver.py:51-59 | at most 5000 reads are made: chunks after the 5000th do not affect the outcome |
| CdcScanner.PollGarbage | vmu931_cdc_driver.py:51-56 | chunks that never contain a start marker pile up in the buffer and the loop returns None after 5000 reads |
| CdcScanner.PacketOfSampleFrame | vmu931_cdc_driver.py:44-83 | round trip: a first chunk that begins with a sample frame of the requested type and holds more than the frame yields that sample |
| CdcScanner.LoneFrameWaits | vmu931_cdc_driver.py:66-68 | a sample frame of exactly 20 bytes is not examined: the buffer is kept and the loop reads again |
| CdcScanner.AsWrittenLosesFrame | vmu931_cdc_driver.py:66-89 | the as-written pass over an euler frame, a gyro frame and 20 zero bytes, awaiting gyro, returns no sample and keeps 22 bytes without a start marker |
| CdcScanner.AsWrittenGivesUp | vmu931_cdc_driver.py:44-89 | with that buffer first and only bytes without a start marker after it, the driver as written returns None after 5000 reads while the corrected loop returns the gyro sample |
| CdcScanner.CorrectedFindsFrame | vmu931_cdc_driver.py:66-89 | the corrected pass over the same buffer returns the gyro sample |
| CdcScanner.FixedFindsAfterRejected | vmu931_cdc_driver.py:66-89 | in the corrected pass, an accepted frame right after a rejected well-sized frame is always found |

## Left out

- Opening and closing the serial port is not modelled, and neither are
  the per-retry reopening, USB discovery (`connect`), timeouts, `sleep`,
  logging and the `__main__` loops. These are transport plumbing. The
  serial port is one continuous byte stream, and the USB reads are a
  finite list of chunks.
- The exceptions raised by `port.write` and by the USB read are left out,
  because they are foreign calls. The one exception is the reader raising
  once nothing more arrives, which is modelled as `TransportError` when the
  chunks run out.
- The IEEE-754 decoding of x, y and z is not modelled. They stay 4-byte
  big-endian words.
- The `is` comparisons on small integers and one-character strings are
  modelled as equality, since CPython interns those values.
- The `message_end is None` branch (vmu931_cdc_driver.py:86-87) is
  unreachable: by then the terminator was read successfully. The model has
  no such branch.
- `__init__`, which reads the configuration and applies
  `basic_configuration`, is not modelled as a method. Its two steps are
  `SerialReader.GetConfiguration` and `Commands.SetConfiguration`, and
  `Commands.BasicConfigurationApplies` states the second.
- The default arguments of `get_message` (`m_type='gyro'`,
  vmu931_driver.py:90) and `get_vmu_packet` (`m_type='euler'`,
  vmu931_cdc_driver.py:44) are not modelled. `SerialReader.GetMessage` and
  `CdcScanner.GetVmuPacket` take the type as a required parameter.
- CdcScanner.Poll: the 64-byte bound on each read is not a precondition,
  because the USB library decides it. `CdcScanner.PassGrowth` states what
  the bound gives.

## Findings

| source | as written | input that shows it | evidently intended | confidence | as-written member | corrected member |
|---|---|---|---|---|---|---|
| vmu931_cdc_driver.py:66-89 | after a non-matching frame the buffer is cut (`data = data[i+3+message_size:]`), but `enumerate` keeps walking the old buffer's indices and applies them to the cut buffer, so the next frame is looked for at a shifted position | a buffer holding an euler frame, then a gyro frame, then 20 zero bytes, with a gyro packet requested: the gyro frame's start marker is at index 20 of the old buffer, but in the cut buffer index 20 is the gyro frame's terminator and the length byte after it is a zero padding byte, so the terminator index falls on a zero payload byte, the buffer is cut again and the gyro frame is discarded | scanning past a non-matching frame resumes right after its terminator, in the same buffer, so a following frame of the requested type is returned | high; not executed | CdcScanner.AsWrittenLosesFrame | CdcScanner.FixedFindsAfterRejected |

=== FILE: cdc_scanner.dfy ===
/** The USB (CDC) driver's packet reader `get_vmu_packet`: chunks of at most
    64 bytes are appended to a buffer, and each pass scans the buffer for a
    start marker with more than 20 bytes from it to the end. */
module CdcScanner {
  import opened Common
  import opened Bytes
  import opened Frames

  /** The loop gives up when its counter passes this. */
  const MaxIterations: nat := 5000

  /** A start marker is examined only when more than this many bytes follow
      from it (`len(data[i:]) > 20`). */
  const MinRemaining: nat := 20

  /** `i + 3 + message_size`: where the terminator of the frame starting at
      i should be. It is below i when the length byte is below 4. */
  function EndIndex(data: seq<byte>, i: nat): (e: int)
    requires i + 1 < |data|
    ensures e >= i - 1
  {
    i + 3 + (data[i + 1] as int - 4)
  }

  /** `t` is what remains of `s` after dropping a prefix. */
  predicate IsSuffix(t: seq<byte>, s: seq<byte>)
  {
    |t| <= |s| && t == s[|s| - |t|..]
  }

  lemma SuffixTransitive(u: seq<byte>, t: seq<byte>, s: seq<byte>)
    requires IsSuffix(u, t) && IsSuffix(t, s)
    ensures IsSuffix(u, s)
  {
    assert s[|s| - |t|..][|t| - |u|..] == s[|s| - |u|..];
  }

  /** The frame at index p of `data` is terminated, carries the tag of
      `want` and holds the sample `s`, with the terminator and payload
      located the way the driver locates them (Python indexing and slicing). */
  predicate SampleAt(want: Option<char>, data: seq<byte>, p: nat, s: Sample)
  {
    && p + MinRemaining < |data|
    && want == Some(data[p + 2] as char)
    && PyIndex(data, EndIndex(data, p)) == Some(Terminator)
    && UnpackSample(PySlice(data, p + 3, EndIndex(data, p))) == Success(s)
  }

  /** What the body of the scan loop does at a start marker. */
  datatype Step =
    | Hit(sample: Sample)
    | Raise(error: Error)
    | Wipe
    | Cut(rest: seq<byte>)

  /** The step for an accepted frame: its sample, or struct.error. */
  function Unpacked(u: Result<Sample>): (r: Step)
    ensures r.Hit? || r.Raise?
  {
    match u
    case Success(s) => Hit(s)
    case Failure(e) => Raise(e)
  }

  /** The body of the scan loop at a start marker at index i: the
      terminator lookup may raise (caught: the buffer is wiped); a
      terminated frame is looked up by type (an unknown type raises
      KeyError, which is not caught) and unpacked if the tag matches; any
      other frame cuts the buffer at its terminator index. The
      `message_end is None` branch is unreachable: the terminator was read
      successfully by then. */
  function Examine(want: Option<char>, data: seq<byte>, i: nat): (r: Step)
    requires i + MinRemaining < |data|
    ensures r.Hit? ==> ValidSample(r.sample) && want.Some?
    ensures r.Raise? ==> (r.error == KeyError && want.None?) || (r.error == StructError && want.Some?)
    ensures r.Cut? ==> EndIndex(data, i) < |data|
  {
    var e := EndIndex(data, i);
    var tag := data[i + 2] as char;
    match PyIndex(data, e)
    case None => Wipe
    case Some(end) =>
      if end == Terminator && want.None? then Raise(KeyError)
      else if end == Terminator && want == Some(tag) then
        Unpacked(UnpackSample(PySlice(data, i + 3, e)))
      else
        var rest := PySliceFrom(data, e);
        assert rest != [] && rest[0] == end;
        Cut(rest)
  }

  /** What the body of the scan loop decides at a start marker, case by
      case. */
  lemma ExamineMeaning(want: Option<char>, data: seq<byte>, i: nat)
    requires i + MinRemaining < |data|
    ensures var r := Examine(want, data, i);
      && (r.Wipe? <==> EndIndex(data, i) >= |data|)
      && (r.Hit? || r.Raise? <==>
           && PyIndex(data, EndIndex(data, i)) == Some(Terminator)
           && (want.Some? ==> data[i + 2] as char == want.value))
      && (r.Hit? ==> SampleAt(want, data, i, r.sample))
      && (r.Raise? && want.Some? ==> |PySlice(data, i + 3, EndIndex(data, i))| < 16)
      && (r.Cut? ==>
           && r.rest != [] && IsSuffix(r.rest, data)
           && Some(r.rest[0]) == PyIndex(data, EndIndex(data, i))
           && (EndIndex(data, i) >= 0 ==> |r.rest| == |data| - EndIndex(data, i)))
  {
  }

  /** A frame that is taken holds the sample the step returns. */
  lemma ExamineHit(want: Option<char>, data: seq<byte>, i: nat)
    requires i + MinRemaining < |data| && Examine(want, data, i).Hit?
    ensures SampleAt(want, data, i, Examine(want, data, i).sample)
  {
  }

  /** A cut keeps a suffix of the buffer. */
  lemma ExamineCut(want: Option<char>, data: seq<byte>, i: nat)
    requires i + MinRemaining < |data| && Examine(want, data, i).Cut?
    ensures IsSuffix(Examine(want, data, i).rest, data)
  {
  }

  /** How one pass over the buffer ends: a sample, an exception that
      escapes, or the buffer the next pass starts from. */
  datatype PassResult =
    | Found(sample: Sample)
    | Escaped(error: Error)
    | Continue(buffer: seq<byte>)

  predicate NoStartFrom(s: seq<byte>, i: nat)
  {
    forall j | i <= j < |s| :: s[j] != StartMarker
  }

  /** Escaping exceptions are KeyError for an unknown type and struct.error
      for a short payload. */
  predicate ExpectedEscape(want: Option<char>, r: PassResult)
  {
    r.Escaped? ==>
      (r.error == KeyError && want.None?) || (r.error == StructError && want.Some?)
  }

  /** A found sample is a valid one, and only a known type finds one. */
  predicate ValidFind(want: Option<char>, r: PassResult)
  {
    r.Found? ==> ValidSample(r.sample) && want.Some?
  }

  lemma ContinueInSuffix(rest: seq<byte>, data: seq<byte>, r: PassResult)
    requires IsSuffix(rest, data)
    requires r.Continue? ==> IsSuffix(r.buffer, rest)
    ensures r.Continue? ==> IsSuffix(r.buffer, data)
  {
    if r.Continue? {
      SuffixTransitive(r.buffer, rest, data);
    }
  }

  /** The scan loop as written: `enumerate` walks the buffer as it was when
      the pass began (`snapshot`), while a cut rebinds `data` to a suffix
      and the remaining start-marker positions of the snapshot are then
      looked up in that suffix. */
  function ScanFrom(want: Option<char>, snapshot: seq<byte>, data: seq<byte>, i: nat): (r: PassResult)
    ensures ExpectedEscape(want, r) && ValidFind(want, r)
    decreases |snapshot| - i, 1
  {
    if i >= |snapshot| then Continue(data)
    else if snapshot[i] == StartMarker && LenFrom(data, i) > MinRemaining then FromAt(want, snapshot, data, i)
    else ScanFrom(want, snapshot, data, i + 1)
  }

  /** The body of the loop as written at a start marker it examines. */
  function FromAt(want: Option<char>, snapshot: seq<byte>, data: seq<byte>, i: nat): (r: PassResult)
    requires i < |snapshot| && i + MinRemaining < |data|
    ensures ExpectedEscape(want, r) && ValidFind(want, r)
    decreases |snapshot| - i, 0
  {
    match Examine(want, data, i)
    case Hit(s) => Found(s)
    case Raise(e) => Escaped(e)
    case Wipe => Continue([])
    case Cut(rest) => ScanFrom(want, snapshot, rest, i + 1)
  }

  /** What a pass as written leaves for the next one is a suffix of the
      buffer. */
  lemma {:induction false} ScanFromSuffix(want: Option<char>, snapshot: seq<byte>, data: seq<byte>, i: nat)
    ensures var r := ScanFrom(want, snapshot, data, i);
      r.Continue? ==> IsSuffix(r.buffer, data)
    decreases |snapshot| - i, 1
  {
    if i >= |snapshot| {
      assert IsSuffix(data, data);
    } else if snapshot[i] == StartMarker && LenFrom(data, i) > MinRemaining {
      FromAtSuffix(want, snapshot, data, i);
    } else {
      ScanFromSuffix(want, snapshot, data, i + 1);
    }
  }

  lemma {:induction false} FromAtSuffix(want: Option<char>, snapshot: seq<byte>, data: seq<byte>, i: nat)
    requires i < |snapshot| && i + MinRemaining < |data|
    ensures var r := FromAt(want, snapshot, data, i);
      r.Continue? ==> IsSuffix(r.buffer, data)
    decreases |snapshot| - i, 0
  {
    var step := Examine(want, data, i);
    if step.Cut? {
      FromAtCut(want, snapshot, data, i);
      ExamineCut(want, data, i);
      ScanFromSuffix(want, snapshot, step.rest, i + 1);
      ContinueInSuffix(step.rest, data, ScanFrom(want, snapshot, step.rest, i + 1));
    } else if step.Wipe? {
      assert data[|data|..] == [];
    }
  }

  /** Past a frame it does not take, the loop as written goes on at the
      next index of the snapshot, reading the cut buffer. */
  lemma FromAtCut(want: Option<char>, snapshot: seq<byte>, data: seq<byte>, i: nat)
    requires i < |snapshot| && i + MinRemaining < |data| && Examine(want, data, i).Cut?
    ensures FromAt(want, snapshot, data, i) == ScanFrom(want, snapshot, Examine(want, data, i).rest, i + 1)
  {
  }

  /** Without a start marker left to visit, or with too short a buffer to
      examine one, a pass keeps the buffer as it is. */
  lemma {:induction false} ScanFromKeeps(want: Option<char>, snapshot: seq<byte>, data: seq<byte>, i: nat)
    requires NoStartFrom(snapshot, i) || |data| <= MinRemaining
    ensures ScanFrom(want, snapshot, data, i) == Continue(data)
    decreases |snapshot| - i
  {
    if i < |snapshot| {
      ScanFromKeeps(want, snapshot, data, i + 1);
    }
  }

  /** Every sample the scan loop as written returns was unpacked from a
      frame of the type asked for, at index `p` of what the buffer had
      become by then (`t`, a suffix of the buffer). */
  lemma {:induction false} ScanFromFound(want: Option<char>, snapshot: seq<byte>, data: seq<byte>, i: nat)
    returns (t: seq<byte>, p: nat)
    ensures var r := ScanFrom(want, snapshot, data, i);
      r.Found? ==> IsSuffix(t, data) && SampleAt(want, t, p, r.sample)
    decreases |snapshot| - i, 1
  {
    if i >= |snapshot| {
      t, p := data, 0;
    } else if snapshot[i] == StartMarker && LenFrom(data, i) > MinRemaining {
      t, p := FromAtFound(want, snapshot, data, i);
    } else {
      t, p := ScanFromFound(want, snapshot, data, i + 1);
    }
  }

  lemma {:induction false} FromAtFound(want: Option<char>, snapshot: seq<byte>, data: seq<byte>, i: nat)
    returns (t: seq<byte>, p: nat)
    requires i < |snapshot| && i + MinRemaining < |data|
    ensures var r := FromAt(want, snapshot, data, i);
      r.Found? ==> IsSuffix(t, data) && SampleAt(want, t, p, r.sample)
    decreases |snapshot| - i, 0
  {
    match Examine(want, data, i)
    case Hit(s) =>
      ExamineHit(want, data, i);
      assert IsSuffix(data, data);
      t, p := data, i;
    case Raise(_) =>
      t, p := data, i;
    case Wipe =>
      t, p := data, i;
    case Cut(rest) =>
      ExamineCut(want, data, i);
      t, p := ScanFromFound(want, snapshot, rest, i + 1);
      if ScanFrom(want, snapshot, rest, i + 1).Found? {
        SuffixTransitive(t, rest, data);
      }
  }

  /** What the scan loop was evidently meant to do: scan one buffer, and
      past a non-matching frame resume after its terminator, remembering
      that the buffer from `from` on is what the next pass keeps. */
  function ScanFixed(want: Option<char>, data: seq<byte>, i: nat, from: nat): (r: PassResult)
    requires from <= |data|
    ensures ExpectedEscape(want, r) && ValidFind(want, r)
    decreases |data| - i, 1
  {
    if i >= |data| then Continue(data[from..])
    else if data[i] == StartMarker && LenFrom(data, i) > MinRemaining then FixedAt(want, data, i, from)
    else ScanFixed(want, data, i + 1, from)
  }

  /** The body of the corrected loop at a start marker it examines: past a
      frame it does not take it goes on after the frame's terminator, and
      the buffer kept for the next pass starts at that terminator. */
  function FixedAt(want: Option<char>, data: seq<byte>, i: nat, from: nat): (r: PassResult)
    requires from <= |data| && i + MinRemaining < |data|
    ensures ExpectedEscape(want, r) && ValidFind(want, r)
    decreases |data| - i, 0
  {
    match Examine(want, data, i)
    case Hit(s) => Found(s)
    case Raise(e) => Escaped(e)
    case Wipe => Continue([])
    case Cut(_) =>
      var end := EndIndex(data, i);
      ScanFixed(want, data, if end >= i then end + 1 else i + 1, if end > from then end else from)
  }

  /** Past a frame it does not take, the corrected loop goes on at `next`,
      keeping the buffer from `nextFrom` on. */
  lemma FixedCut(want: Option<char>, data: seq<byte>, i: nat, from: nat) returns (next: nat, nextFrom: nat)
    requires from <= |data| && i + MinRemaining < |data| && Examine(want, data, i).Cut?
    ensures next > i && nextFrom <= |data|
    ensures EndIndex(data, i) >= i ==> next == EndIndex(data, i) + 1
    ensures EndIndex(data, i) > from ==> nextFrom == EndIndex(data, i)
    ensures FixedAt(want, data, i, from) == ScanFixed(want, data, next, nextFrom)
  {
    var end := EndIndex(data, i);
    next := if end >= i then end + 1 else i + 1;
    nextFrom := if end > from then end else from;
  }

  /** What a pass of the corrected loop leaves for the next one is a
      suffix of the buffer. */
  lemma {:induction false} ScanFixedSuffix(want: Option<char>, data: seq<byte>, i: nat, from: nat)
    requires from <= |data|
    ensures var r := ScanFixed(want, data, i, from);
      r.Continue? ==> IsSuffix(r.buffer, data)
    decreases |data| - i, 1
  {
    if i >= |data| {
      assert |data| - |data[from..]| == from;
    } else if data[i] == StartMarker && LenFrom(data, i) > MinRemaining {
      FixedAtSuffix(want, data, i, from);
    } else {
      ScanFixedSuffix(want, data, i + 1, from);
    }
  }

  lemma {:induction false} FixedAtSuffix(want: Option<char>, data: seq<byte>, i: nat, from: nat)
    requires from <= |data| && i + MinRemaining < |data|
    ensures var r := FixedAt(want, data, i, from);
      r.Continue? ==> IsSuffix(r.buffer, data)
    decreases |data| - i, 0
  {
    match Examine(want, data, i)
    case Hit(_) =>
    case Raise(_) =>
    case Wipe =>
      assert data[|data|..] == [];
    case Cut(_) =>
      var next, nextFrom := FixedCut(want, data, i, from);
      ScanFixedSuffix(want, data, next, nextFrom);
  }

  /** The corrected loop keeps the buffer from `from` on when no start
      marker is left to visit or the buffer is too short. */
  lemma {:induction false} ScanFixedKeeps(want: Option<char>, data: seq<byte>, i: nat, from: nat)
    requires from <= |data|
    requires NoStartFrom(data, i) || |data| <= MinRemaining
    ensures ScanFixed(want, data, i, from) == Continue(data[from..])
    decreases |data| - i
  {
    if i < |data| {
      ScanFixedKeeps(want, data, i + 1, from);
    }
  }

  /** Every sample the corrected loop returns was unpacked from a frame of
      the type asked for that starts at a start marker `p` of the buffer. */
  lemma {:induction false} ScanFixedFound(want: Option<char>, data: seq<byte>, i: nat, from: nat) returns (p: nat)
    requires from <= |data|
    ensures var r := ScanFixed(want, data, i, from);
      r.Found? ==> p < |data| && data[p] == StartMarker && SampleAt(want, data, p, r.sample)
    decreases |data| - i, 1
  {
    if i >= |data| {
      p := 0;
    } else if data[i] == StartMarker && LenFrom(data, i) > MinRemaining {
      p := FixedAtFound(want, data, i, from);
    } else {
      p := ScanFixedFound(want, data, i + 1, from);
    }
  }

  lemma {:induction false} FixedAtFound(want: Option<char>, data: seq<byte>, i: nat, from: nat) returns (p: nat)
    requires from <= |data| && i + MinRemaining < |data| && data[i] == StartMarker
    ensures var r := FixedAt(want, data, i, from);
      r.Found? ==> p < |data| && data[p] == StartMarker && SampleAt(want, data, p, r.sample)
    decreases |data| - i, 0
  {
    match Examine(want, data, i)
    case Hit(_) =>
      ExamineHit(want, data, i);
      p := i;
    case Raise(_) =>
      p := i;
    case Wipe =>
      p := i;
    case Cut(_) =>
      var next, nextFrom := FixedCut(want, data, i, from);
      p := ScanFixedFound(want, data, next, nextFrom);
  }

  /** Which scan loop a pass runs: the one the driver has, or the
      corrected one. */
  datatype Reading = AsWritten | Corrected

  /** One pass of the scan loop over the whole buffer. */
  function ScanPass(v: Reading, want: Option<char>, data: seq<byte>): (r: PassResult)
    ensures ExpectedEscape(want, r) && ValidFind(want, r)
  {
    match v
    case AsWritten => ScanFrom(want, data, data, 0)
    case Corrected => ScanFixed(want, data, 0, 0)
  }

  /** A buffer without a start marker, or of at most 20 bytes, is kept
      whole by a pass. */
  lemma ScanPassKeeps(v: Reading, want: Option<char>, data: seq<byte>)
    requires StartMarker !in data || |data| <= MinRemaining
    ensures ScanPass(v, want, data) == Continue(data)
  {
    match v
    case AsWritten => ScanFromKeeps(want, data, data, 0);
    case Corrected => ScanFixedKeeps(want, data, 0, 0);
  }

  /** Under either loop, what a pass leaves for the next is a suffix of
      the buffer: the driver only ever drops bytes from the front. */
  lemma ScanPassSuffix(v: Reading, want: Option<char>, data: seq<byte>)
    ensures var r := ScanPass(v, want, data);
      r.Continue? ==> IsSuffix(r.buffer, data)
  {
    match v
    case AsWritten => ScanFromSuffix(want, data, data, 0);
    case Corrected => ScanFixedSuffix(want, data, 0, 0);
  }

  /** The most bytes one read of the endpoint delivers. */
  const ChunkSize: nat := 64

  /** The buffer never grows during a pass, so with reads of at most 64
      bytes the buffer kept after the read with index `count` holds at most
      64 bytes per read so far. */
  lemma PassGrowth(v: Reading, want: Option<char>, data: seq<byte>, chunk: seq<byte>, count: nat)
    requires |data| <= ChunkSize * count && |chunk| <= ChunkSize
    ensures var r := ScanPass(v, want, data + chunk);
      r.Continue? ==> |r.buffer| <= ChunkSize * (count + 1)
  {
    ScanPassSuffix(v, want, data + chunk);
  }

  /** A terminator index past the end of the buffer ends the pass with an
      empty buffer, under either loop. */
  lemma WipeEndsPass(want: Option<char>, snapshot: seq<byte>, data: seq<byte>, i: nat, from: nat)
    requires i < |snapshot| && snapshot[i] == StartMarker && i + MinRemaining < |data|
    requires EndIndex(data, i) >= |data| && from <= |data|
    ensures ScanFrom(want, snapshot, data, i) == Continue([])
    ensures data[i] == StartMarker ==> ScanFixed(want, data, i, from) == Continue([])
  {
    ExamineMeaning(want, data, i);
    assert ScanFrom(want, snapshot, data, i) == FromAt(want, snapshot, data, i);
    if data[i] == StartMarker {
      assert ScanFixed(want, data, i, from) == FixedAt(want, data, i, from);
    }
  }

  /** Under either loop, a found sample comes from a frame in a suffix of
      the buffer. */
  lemma ScanPassFound(v: Reading, want: Option<char>, data: seq<byte>) returns (t: seq<byte>, p: nat)
    ensures var r := ScanPass(v, want, data);
      r.Found? ==> IsSuffix(t, data) && SampleAt(want, t, p, r.sample)
  {
    match v
    case AsWritten =>
      t, p := ScanFromFound(want, data, data, 0);
    case Corrected =>
      p := ScanFixedFound(want, data, 0, 0);
      t := data;
      assert IsSuffix(data, data);
  }

  /** How `get_vmu_packet` ends. */
  datatype Outcome =
    | Nothing
    | Packet(sample: Sample)
    | Raised(error: Error)

  /** The outer loop from the read with index `count` on: give up once the
      counter passes 5000, otherwise append the next chunk and scan. The
      reader raising once nothing more arrives is the TransportError when
      the chunks run out. */
  function Poll(v: Reading, want: Option<char>, chunks: seq<seq<byte>>, data: seq<byte>, count: nat): (r: Outcome)
    requires count <= MaxIterations
    ensures r.Raised? ==> r.error == KeyError || r.error == StructError || r.error == TransportError
    ensures r.Raised? && r.error == KeyError ==> want.None?
    ensures r.Raised? && r.error == StructError ==> want.Some?
    ensures r.Raised? && r.error == TransportError ==> |chunks| < MaxIterations
    ensures r.Packet? ==> ValidSample(r.sample) && want.Some?
    ensures r.Nothing? ==> count == MaxIterations || |chunks| >= MaxIterations
    decreases MaxIterations - count
  {
    if count + 1 > MaxIterations then Nothing
    else if count >= |chunks| then Raised(TransportError)
    else
      var buffer := data + chunks[count];
      match ScanPass(v, want, buffer)
      case Found(s) => Packet(s)
      case Escaped(e) => Raised(e)
      case Continue(rest) => Poll(v, want, chunks, rest, count + 1)
  }

  /** `message_types[m_type]` as the scan loop looks it up: `None` stands
      for the KeyError an unknown type raises there. */
  function WantedTag(mType: string): (w: Option<char>)
    ensures w.Some? <==> mType in MessageTypes
    ensures w.Some? ==> w.value == MessageTypes[mType]
  {
    if mType in MessageTypes then Some(MessageTypes[mType]) else None
  }

  /** `get_vmu_packet`: `None` without a device, otherwise the outer loop
      from an empty buffer. */
  function GetVmuPacket(v: Reading, connected: bool, mType: string, chunks: seq<seq<byte>>): (r: Outcome)
    ensures !connected ==> r == Nothing
    ensures r.Raised? ==> r.error == KeyError || r.error == StructError || r.error == TransportError
    ensures r.Raised? && r.error == KeyError ==> mType !in MessageTypes
    ensures r.Raised? && r.error == StructError ==> mType in MessageTypes
    ensures r.Raised? && r.error == TransportError ==> |chunks| < MaxIterations
    ensures r.Packet? ==> ValidSample(r.sample) && mType in MessageTypes
    ensures r.Nothing? ==> !connected || |chunks| >= MaxIterations
  {
    if !connected then Nothing else Poll(v, WantedTag(mType), chunks, [], 0)
  }

  /** The bytes of the reads with indexes lo up to (not including) hi, in
      the order they arrived. */
  function Acc(chunks: seq<seq<byte>>, lo: nat, hi: nat): (a: seq<byte>)
    requires lo <= hi <= |chunks|
    decreases hi - lo
  {
    if lo == hi then [] else Acc(chunks, lo, hi - 1) + chunks[hi - 1]
  }

  lemma AccOne(chunks: seq<seq<byte>>, i: nat)
    requires i < |chunks|
    ensures Acc(chunks, i, i + 1) == chunks[i]
  {
    assert Acc(chunks, i, i + 1) == [] + chunks[i];
    assert [] + chunks[i] == chunks[i];
  }

  /** The reads accumulated from lo are the read lo followed by those after it. */
  lemma {:induction false} AccFirst(chunks: seq<seq<byte>>, lo: nat, hi: nat)
    requires lo < hi <= |chunks|
    ensures Acc(chunks, lo, hi) == chunks[lo] + Acc(chunks, lo + 1, hi)
    decreases hi - lo
  {
    if hi == lo + 1 {
      AccOne(chunks, lo);
      assert Acc(chunks, lo + 1, hi) == [];
      assert chunks[lo] + [] == chunks[lo];
    } else {
      var first, before, last := chunks[lo], Acc(chunks, lo + 1, hi - 1), chunks[hi - 1];
      assert Acc(chunks, lo, hi) == (first + before) + last by {
        AccFirst(chunks, lo, hi - 1);
      }
      assert Acc(chunks, lo + 1, hi) == before + last;
      Associative(first, before, last);
    }
  }

  /** Appending the same bytes keeps a suffix a suffix. */
  lemma SuffixAppend(t: seq<byte>, s: seq<byte>, x: seq<byte>)
    requires IsSuffix(t, s)
    ensures IsSuffix(t + x, s + x)
  {
    assert (s + x)[|s + x| - |t + x|..] == s[|s| - |t|..] + x;
  }

  /** One turn of the outer loop once a read has arrived: a found sample
      is returned, a continued pass hands its buffer to the next turn. */
  lemma PollStep(v: Reading, want: Option<char>, chunks: seq<seq<byte>>, data: seq<byte>, count: nat)
    requires count < MaxIterations && count < |chunks|
    ensures var pass := ScanPass(v, want, data + chunks[count]);
      && (pass.Found? ==> Poll(v, want, chunks, data, count) == Packet(pass.sample))
      && (pass.Continue? ==> Poll(v, want, chunks, data, count) == Poll(v, want, chunks, pass.buffer, count + 1))
      && (pass.Escaped? ==> Poll(v, want, chunks, data, count) == Raised(pass.error))
  {
  }

  /** A suffix of what a pass left after read `count`, extended by the
      later reads, is a suffix of the earlier buffer extended by all of
      them. */
  lemma SuffixThroughRead(t: seq<byte>, rest: seq<byte>, data: seq<byte>, chunks: seq<seq<byte>>, count: nat, k: nat)
    requires count <= k < |chunks|
    requires IsSuffix(rest, data + chunks[count])
    requires IsSuffix(t, rest + Acc(chunks, count + 1, k + 1))
    ensures IsSuffix(t, data + Acc(chunks, count, k + 1))
  {
    var later := Acc(chunks, count + 1, k + 1);
    SuffixAppend(rest, data + chunks[count], later);
    AccFirst(chunks, count, k + 1);
    assert data + chunks[count] + later == data + Acc(chunks, count, k + 1);
    SuffixTransitive(t, rest + later, data + Acc(chunks, count, k + 1));
  }

  /** A packet returned by the outer loop was found by the pass after
      some read k: its frame lies in a suffix of the bytes left over
      before the loop plus everything read up to and including read k. */
  lemma {:induction false} PollFound(v: Reading, want: Option<char>, chunks: seq<seq<byte>>, data: seq<byte>, count: nat)
      returns (k: nat, t: seq<byte>, p: nat)
    requires count <= MaxIterations
    ensures var r := Poll(v, want, chunks, data, count);
      r.Packet? ==>
        && count <= k < |chunks| && k < MaxIterations
        && IsSuffix(t, data + Acc(chunks, count, k + 1))
        && SampleAt(want, t, p, r.sample)
    decreases MaxIterations - count
  {
    k, t, p := 0, [], 0;
    if count < MaxIterations && count < |chunks| {
      var buffer := data + chunks[count];
      var pass := ScanPass(v, want, buffer);
      PollStep(v, want, chunks, data, count);
      if pass.Found? {
        t, p := ScanPassFound(v, want, buffer);
        k := count;
        AccOne(chunks, count);
      } else if pass.Continue? {
        k, t, p := PollFound(v, want, chunks, pass.buffer, count + 1);
        if Poll(v, want, chunks, pass.buffer, count + 1).Packet? {
          ScanPassSuffix(v, want, buffer);
          SuffixThroughRead(t, pass.buffer, data, chunks, count, k);
        }
      }
    }
  }

  /** A packet returned by `get_vmu_packet` comes from a terminated frame
      carrying the tag of the requested type, in a suffix of the bytes read
      up to and including some read k. */
  lemma GetVmuPacketFound(v: Reading, connected: bool, mType: string, chunks: seq<seq<byte>>)
      returns (k: nat, t: seq<byte>, p: nat)
    ensures var r := GetVmuPacket(v, connected, mType, chunks);
      r.Packet? ==>
        && connected && mType in MessageTypes && k < |chunks| && k < MaxIterations
        && IsSuffix(t, Acc(chunks, 0, k + 1))
        && SampleAt(Some(MessageTypes[mType]), t, p, r.sample)
  {
    k, t, p := PollFound(v, WantedTag(mType), chunks, [], 0);
    if GetVmuPacket(v, connected, mType, chunks).Packet? {
      assert [] + Acc(chunks, 0, k + 1) == Acc(chunks, 0, k + 1);
    }
  }

  /** Examining a well-sized frame found at index |pre|: it is unpacked
      when it is accepted, raises KeyError when it is terminated and the
      type is unknown, and otherwise the buffer is cut at its terminator. */
  lemma ExamineFrame(want: Option<char>, pre: seq<byte>, f: Frame, rest: seq<byte>)
    requires WellSized(f) && f.length >= 4 && |Encode(f) + rest| > MinRemaining
    ensures var r := Examine(want, pre + Encode(f) + rest, |pre|);
      && (want.Some? && Accepts(want.value, f) ==> r == Unpacked(UnpackSample(f.payload)))
      && (want.None? && f.terminator == Terminator ==> r == Raise(KeyError))
      && (f.terminator != Terminator || (want.Some? && !Accepts(want.value, f)) ==>
           r == Cut([f.terminator] + rest))
  {
    var data, i, n := pre + Encode(f) + rest, |pre|, |f.payload|;
    FrameAt(pre, f, rest);
    ExamineInside(want, data, i, n);
    if f.terminator != Terminator || (want.Some? && !Accepts(want.value, f)) {
      assert data[i + 3 + n..] == [f.terminator] + rest;
    } else if want.Some? {
      assert data[i + 3..i + 3 + n] == f.payload;
    }
  }

  /** Examining a start marker whose frame ends inside the buffer, as
      plain slices of the buffer. */
  lemma ExamineInside(want: Option<char>, data: seq<byte>, i: nat, n: nat)
    requires i + MinRemaining < |data| && data[i + 1] == n + 4 && i + 3 + n < |data|
    ensures var end, r := data[i + 3 + n], Examine(want, data, i);
      && (end == Terminator && want.None? ==> r == Raise(KeyError))
      && (end == Terminator && want == Some(data[i + 2] as char) ==>
            r == Unpacked(UnpackSample(data[i + 3..i + 3 + n])))
      && (end != Terminator || (want.Some? && want != Some(data[i + 2] as char)) ==>
            r == Cut(data[i + 3 + n..]))
  {
    InsideLookups(data, i, n);
  }

  /** Where the lookups of the scan loop land for such a start marker. */
  lemma InsideLookups(data: seq<byte>, i: nat, n: nat)
    requires i + MinRemaining < |data| && data[i + 1] == n + 4 && i + 3 + n < |data|
    ensures EndIndex(data, i) == i + 3 + n
    ensures PyIndex(data, i + 3 + n) == Some(data[i + 3 + n])
    ensures PySlice(data, i + 3, i + 3 + n) == data[i + 3..i + 3 + n]
    ensures PySliceFrom(data, i + 3 + n) == data[i + 3 + n..]
  {
  }

  lemma NoPrefix(x: seq<byte>, y: seq<byte>)
    ensures [] + x + y == x + y
  {
    assert [] + x == x;
  }

  lemma Regroup(x: seq<byte>, y: seq<byte>, z: seq<byte>)
    ensures [] + x + (y + z) == x + y + z
  {
    assert [] + x == x;
  }

  /** The pass result for an accepted frame. */
  function Delivered(u: Result<Sample>): (r: PassResult)
    ensures r.Found? || r.Escaped?
    ensures r.Found? <==> u.Success?
  {
    match u
    case Success(s) => Found(s)
    case Failure(e) => Escaped(e)
  }

  /** A pass over a buffer that starts with an accepted well-sized frame
      (with more than 20 bytes in the buffer) unpacks that frame, under
      either scan loop. */
  lemma LeadingFrame(v: Reading, want: Option<char>, f: Frame, rest: seq<byte>)
    requires want.Some? && WellSized(f) && f.length >= 4 && Accepts(want.value, f)
    requires |Encode(f) + rest| > MinRemaining
    ensures ScanPass(v, want, Encode(f) + rest) == Delivered(UnpackSample(f.payload))
  {
    var data := Encode(f) + rest;
    ExamineFrame(want, [], f, rest);
    NoPrefix(Encode(f), rest);
    assert data[0] == StartMarker && LenFrom(data, 0) > MinRemaining;
    match v
    case AsWritten =>
      assert ScanFrom(want, data, data, 0) == FromAt(want, data, data, 0);
    case Corrected =>
      assert ScanFixed(want, data, 0, 0) == FixedAt(want, data, 0, 0);
  }

  /** The corrected loop at an accepted frame unpacks it. */
  lemma ScanFixedAtFrame(want: Option<char>, pre: seq<byte>, f: Frame, rest: seq<byte>, from: nat)
    requires want.Some? && WellSized(f) && f.length >= 4 && Accepts(want.value, f)
    requires |Encode(f) + rest| > MinRemaining && from <= |pre + Encode(f) + rest|
    ensures ScanFixed(want, pre + Encode(f) + rest, |pre|, from) == Delivered(UnpackSample(f.payload))
  {
    var data := pre + Encode(f) + rest;
    ExamineFrame(want, pre, f, rest);
    assert data[|pre|] == StartMarker;
    assert LenFrom(data, |pre|) > MinRemaining;
    assert ScanFixed(want, data, |pre|, from) == FixedAt(want, data, |pre|, from);
  }

  /** A buffer that starts with a well-sized frame the reader rejects is
      cut at that frame's terminator, the last byte of the frame. */
  lemma RejectedLeader(want: Option<char>, a: Frame, tail: seq<byte>)
    requires want.Some? && WellSized(a) && a.length >= 4 && !Accepts(want.value, a)
    requires |tail| > MinRemaining
    ensures var data := Encode(a) + tail;
      && data[0] == StartMarker && LenFrom(data, 0) > MinRemaining
      && Examine(want, data, 0).Cut?
      && EndIndex(data, 0) == |Encode(a)| - 1
  {
    ExamineFrame(want, [], a, tail);
    NoPrefix(Encode(a), tail);
  }

  /** In the corrected loop a frame right after a rejected one is found. */
  lemma FixedFindsAfterRejected(want: Option<char>, a: Frame, f: Frame, rest: seq<byte>)
    requires want.Some? && WellSized(a) && a.length >= 4 && !Accepts(want.value, a)
    requires WellSized(f) && f.length >= 4 && Accepts(want.value, f)
    requires |Encode(f) + rest| > MinRemaining
    ensures ScanPass(Corrected, want, Encode(a) + Encode(f) + rest) == Delivered(UnpackSample(f.payload))
  {
    var tail := Encode(f) + rest;
    var data := Encode(a) + tail;
    var k := |Encode(a)|;
    RejectedLeader(want, a, tail);
    assert ScanFixed(want, data, 0, 0) == FixedAt(want, data, 0, 0);
    var next, nextFrom := FixedCut(want, data, 0, 0);
    assert next == k && nextFrom == k - 1;
    assert data == Encode(a) + Encode(f) + rest;
    ScanFixedAtFrame(want, Encode(a), f, rest, k - 1);
  }

  /** Positions of the snapshot without a start marker are passed over. */
  lemma {:induction false} SkipNoStart(want: Option<char>, snapshot: seq<byte>, data: seq<byte>, i: nat, k: nat)
    requires i <= k <= |snapshot|
    requires forall j | i <= j < k :: snapshot[j] != StartMarker
    ensures ScanFrom(want, snapshot, data, i) == ScanFrom(want, snapshot, data, k)
    decreases k - i
  {
    if i < k {
      SkipOne(want, snapshot, data, i);
      SkipNoStart(want, snapshot, data, i + 1, k);
    }
  }

  lemma SkipOne(want: Option<char>, snapshot: seq<byte>, data: seq<byte>, i: nat)
    requires i < |snapshot| && snapshot[i] != StartMarker
    ensures ScanFrom(want, snapshot, data, i) == ScanFrom(want, snapshot, data, i + 1)
  {
  }

  /** A cut at an examined start marker moves the scan on to the cut buffer. */
  lemma CutStep(want: Option<char>, snapshot: seq<byte>, data: seq<byte>, i: nat, rest: seq<byte>)
    requires i < |snapshot| && snapshot[i] == StartMarker && LenFrom(data, i) > MinRemaining
    requires Examine(want, data, i) == Cut(rest)
    ensures ScanFrom(want, snapshot, data, i) == ScanFrom(want, snapshot, rest, i + 1)
  {
    assert ScanFrom(want, snapshot, data, i) == FromAt(want, snapshot, data, i);
  }

  const Zeros4: seq<byte> := [0, 0, 0, 0]

  /** The all-zero sample and its 16 bytes. */
  lemma ZeroSample()
    ensures UnpackSample(Zeros16) == Success(Sample(0, Zeros4, Zeros4, Zeros4))
  {
    assert U32Bytes(0) == Zeros4;
    UnpackPackSample(Sample(0, Zeros4, Zeros4, Zeros4), []);
    assert PackSample(Sample(0, Zeros4, Zeros4, Zeros4)) + [] == Zeros16;
  }

  const Zeros16: seq<byte> := Zeros4 + Zeros4 + Zeros4 + Zeros4
  const EulerZero: Frame := Frame(20, 'e' as int, Zeros16, Terminator)
  const GyroZero: Frame := Frame(20, 'g' as int, Zeros16, Terminator)
  const Padding: seq<byte> := Zeros16 + Zeros4

  /** An euler frame, a gyro frame and 20 zero bytes. */
  const EulerThenGyro: seq<byte> := Encode(EulerZero) + Encode(GyroZero) + Padding

  /** The buffer the first cut leaves: the euler frame's terminator onwards. */
  const FirstCut: seq<byte> := [Terminator] + (Encode(GyroZero) + Padding)

  /** The buffer the second cut leaves. */
  const SecondCut: seq<byte> := [0, Terminator] + Padding

  lemma FirstCutStep()
    ensures ScanFrom(Some('g'), EulerThenGyro, EulerThenGyro, 0) == ScanFrom(Some('g'), EulerThenGyro, FirstCut, 1)
  {
    FirstExamine();
    assert EulerThenGyro[0] == StartMarker && |EulerThenGyro| == 60;
    CutStep(Some('g'), EulerThenGyro, EulerThenGyro, 0, FirstCut);
  }

  lemma FirstExamine()
    ensures Examine(Some('g'), EulerThenGyro, 0) == Cut(FirstCut)
  {
    ExamineFrame(Some('g'), [], EulerZero, Encode(GyroZero) + Padding);
    Regroup(Encode(EulerZero), Encode(GyroZero), Padding);
  }

  lemma SecondCutStep()
    ensures ScanFrom(Some('g'), EulerThenGyro, FirstCut, 20) == ScanFrom(Some('g'), EulerThenGyro, SecondCut, 21)
  {
    SecondExamine();
    assert EulerThenGyro[20] == StartMarker && |EulerThenGyro| == 60 && |FirstCut| == 41;
    CutStep(Some('g'), EulerThenGyro, FirstCut, 20, SecondCut);
  }

  lemma SecondExamine()
    ensures Examine(Some('g'), FirstCut, 20) == Cut(SecondCut)
  {
    assert |FirstCut| == 41 && FirstCut[21] == 0 && FirstCut[19] == 0;
    assert EndIndex(FirstCut, 20) == 19;
    assert FirstCut[19..] == SecondCut;
  }

  lemma NoMoreStarts()
    ensures NoStartFrom(EulerThenGyro, 21)
    ensures forall j | 1 <= j < 20 :: EulerThenGyro[j] != StartMarker
  {
    var e, g := Encode(EulerZero), Encode(GyroZero);
    assert e == [StartMarker, 20, 'e' as int] + Zeros16 + [Terminator];
    assert g == [StartMarker, 20, 'g' as int] + Zeros16 + [Terminator];
    assert forall j | 1 <= j < 20 :: e[j] != StartMarker;
    assert forall j | 1 <= j < 20 :: g[j] != StartMarker;
    assert forall j | 0 <= j < 20 :: Padding[j] == 0;
    assert forall j | 1 <= j < 20 :: EulerThenGyro[j] == e[j];
    assert forall j | 21 <= j < 40 :: EulerThenGyro[j] == g[j - 20];
    assert forall j | 40 <= j < 60 :: EulerThenGyro[j] == Padding[j - 40];
  }

  /** A buffer holding an euler frame, a gyro frame and 20 zero bytes, with
      a gyro sample awaited: the scan loop as written cuts the buffer after
      the euler frame, then looks for the gyro frame at its old position in
      the cut buffer, reads a length byte of 0 there and cuts again,
      discarding the gyro frame. */
  lemma AsWrittenLosesFrame()
    ensures ScanPass(AsWritten, Some('g'), EulerThenGyro) == Continue(SecondCut)
  {
    FirstCutStep();
    NoMoreStarts();
    SkipNoStart(Some('g'), EulerThenGyro, FirstCut, 1, 20);
    SecondCutStep();
    ScanFromKeeps(Some('g'), EulerThenGyro, SecondCut, 21);
  }

  /** The corrected loop returns the gyro sample of the same buffer. */
  lemma CorrectedFindsFrame()
    ensures ScanPass(Corrected, Some('g'), EulerThenGyro) == Found(Sample(0, Zeros4, Zeros4, Zeros4))
  {
    ZeroSample();
    FixedFindsAfterRejected(Some('g'), EulerZero, GyroZero, Padding);
  }

  /** The lost frame is lost for good: with nothing but bytes without a
      start marker arriving afterwards, the driver as written gives up
      after 5000 reads, while the corrected loop returns the gyro sample. */
  lemma AsWrittenGivesUp(chunks: seq<seq<byte>>)
    requires |chunks| >= MaxIterations && chunks[0] == EulerThenGyro
    requires forall k | 1 <= k < |chunks| :: StartMarker !in chunks[k]
    ensures GetVmuPacket(AsWritten, true, "gyro", chunks) == Nothing
    ensures GetVmuPacket(Corrected, true, "gyro", chunks) == Packet(Sample(0, Zeros4, Zeros4, Zeros4))
  {
    assert WantedTag("gyro") == Some('g');
    assert [] + chunks[0] == EulerThenGyro;
    AsWrittenLosesFrame();
    CorrectedFindsFrame();
    assert Poll(AsWritten, Some('g'), chunks, [], 0) == Poll(AsWritten, Some('g'), chunks, SecondCut, 1);
    SecondCutHasNoStart();
    PollGarbage(AsWritten, Some('g'), chunks, SecondCut, 1);
  }

  lemma SecondCutHasNoStart()
    ensures StartMarker !in SecondCut
  {
    assert forall j | 0 <= j < |SecondCut| :: SecondCut[j] == 0 || SecondCut[j] == Terminator;
  }

  /** The loop reads at most 5000 chunks: what comes after them does not
      matter. */
  lemma {:induction false} PollReadsAtMost(v: Reading, want: Option<char>, chunks: seq<seq<byte>>, data: seq<byte>, count: nat)
    requires count <= MaxIterations <= |chunks|
    ensures Poll(v, want, chunks, data, count) == Poll(v, want, chunks[..MaxIterations], data, count)
    decreases MaxIterations - count
  {
    if count + 1 <= MaxIterations {
      var short := chunks[..MaxIterations];
      assert count < |short| && short[count] == chunks[count];
      var r := ScanPass(v, want, data + chunks[count]);
      if r.Continue? {
        PollReadsAtMost(v, want, chunks, r.buffer, count + 1);
      }
    }
  }

  /** Chunks that never contain a start marker accumulate in the buffer,
      and after 5000 of them the loop gives up. */
  lemma {:induction false} PollGarbage(v: Reading, want: Option<char>, chunks: seq<seq<byte>>, data: seq<byte>, count: nat)
    requires count <= MaxIterations <= |chunks|
    requires StartMarker !in data
    requires forall k | count <= k < |chunks| :: StartMarker !in chunks[k]
    ensures Poll(v, want, chunks, data, count) == Nothing
    decreases MaxIterations - count
  {
    if count + 1 <= MaxIterations {
      var buffer := data + chunks[count];
      assert StartMarker !in buffer;
      ScanPassKeeps(v, want, buffer);
      PollGarbage(v, want, chunks, buffer, count + 1);
    }
  }

  /** A first chunk that starts with a sample frame of the requested type
      and holds more than the frame yields that sample. */
  lemma PacketOfSampleFrame(v: Reading, mType: string, s: Sample, more: seq<byte>, chunks: seq<seq<byte>>)
    requires mType in MessageTypes && ValidSample(s) && more != []
    requires |chunks| >= 1 && chunks[0] == Encode(SampleFrame(MessageTypes[mType], s)) + more
    ensures GetVmuPacket(v, true, mType, chunks) == Packet(s)
  {
    var f := SampleFrame(MessageTypes[mType], s);
    LeadingFrame(v, WantedTag(mType), f, more);
    UnpackPackSample(s, []);
    assert PackSample(s) + [] == PackSample(s);
    assert [] + chunks[0] == chunks[0];
  }

  /** A sample frame alone, exactly 20 bytes, is not taken: the pass keeps
      the buffer and the loop waits for the next chunk. */
  lemma LoneFrameWaits(v: Reading, mType: string, s: Sample, chunks: seq<seq<byte>>)
    requires mType in MessageTypes && ValidSample(s)
    requires |chunks| >= 1 && chunks[0] == Encode(SampleFrame(MessageTypes[mType], s))
    ensures GetVmuPacket(v, true, mType, chunks) == Poll(v, WantedTag(mType), chunks, chunks[0], 1)
  {
    assert [] + chunks[0] == chunks[0];
    ScanPassKeeps(v, WantedTag(mType), chunks[0]);
  }
}

=== FILE: commands.dfy ===
/** The commands the serial driver writes: `send_message`, the resolution
    setters and `set_configuration`, together with the device's reading of
    the command grammar as an independent reference. */
module Commands {
  import opened Common
  import opened Bytes
  import opened Status

  /** An open port, seen as the list of messages written to it so far. */
  type Log = seq<string>

  predicate Ascii(s: string)
  {
    forall k | 0 <= k < |s| :: s[k] as int < 128
  }

  /** `send_message`: the port must be open and the message non-empty; the
      message is ASCII-encoded (which raises on any other character) and
      written as one piece. */
  function SendMessage(port: Option<Log>, message: Option<string>): (r: Result<Log>)
    ensures r.Success? <==> port.Some? && message.Some? && |message.value| > 0 && Ascii(message.value)
    ensures r.Success? ==> r.value == port.value + [message.value]
    ensures r.Failure? && (port.None? || message.None? || message.value == []) ==> r.error == ValueError
    ensures r.Failure? && port.Some? && message.Some? && message.value != [] ==> r.error == UnicodeEncodeError
  {
    if port.None? || message.None? || |message.value| == 0 then Failure(ValueError)
    else if !Ascii(message.value) then Failure(UnicodeEncodeError)
    else Success(port.value + [message.value])
  }

  const StatusRequest: string := "vars"

  /** `_ask_for_status`: the status request always passes the checks. */
  function AskForStatus(port: Log): (r: Result<Log>)
    ensures r == Success(port + [StatusRequest])
  {
    SendMessage(Some(port), Some(StatusRequest))
  }

  /** `gyro_resolutions` and `accelerometer_resolutions`: resolution to command digit. */
  const GyroResolutions: map<int, nat> := map[250 := 0, 500 := 1, 1000 := 2, 2000 := 3]
  const AccelerometerResolutions: map<int, nat> := map[2 := 4, 4 := 5, 8 := 6, 16 := 7]

  /** `'var{}'.format(code)` for a one-digit code. */
  function ResolutionCommand(code: nat): (c: string)
    requires code < 10
    ensures |c| == 4 && c[..3] == "var" && Ascii(c)
  {
    "var" + [('0' as int + code) as char]
  }

  /** Every message the driver writes passes the checks of `send_message`
      and is appended unchanged: the status request, every `var<digit>`
      resolution command and the six streaming toggles. */
  lemma DriverMessagesAccepted(port: Log)
    ensures SendMessage(Some(port), Some(StatusRequest)) == Success(port + [StatusRequest])
    ensures forall code | 0 <= code < 10 ::
      SendMessage(Some(port), Some(ResolutionCommand(code))) == Success(port + [ResolutionCommand(code)])
    ensures forall k | 0 <= k < 6 :: SendMessage(Some(port), Some(ToggleOrder[k])) == Success(port + [ToggleOrder[k]])
  {
  }

  /** `set_gyro_resolution`: an unknown resolution raises before anything is written. */
  function SetGyroResolution(port: Option<Log>, resolution: Option<int>): (r: Result<Log>)
    ensures r.Success? <==> port.Some? && resolution.Some? && GyroResolution(resolution.value)
    ensures r.Failure? ==> r.error == ValueError
    ensures r.Success? ==> |r.value| == |port.value| + 1 && r.value[..|port.value|] == port.value
    ensures r.Success? ==> forall d :: Execute(d, r.value[|port.value|]) == d.(gyroscopeResolution := resolution.value)
  {
    if resolution.None? || resolution.value !in GyroResolutions then Failure(ValueError)
    else
      var command := ResolutionCommand(GyroResolutions[resolution.value]);
      SendMessage(port, Some(command))
  }

  /** `set_accelerometer_resolution`: an unknown resolution raises before anything is written. */
  function SetAccelerometerResolution(port: Option<Log>, resolution: Option<int>): (r: Result<Log>)
    ensures r.Success? <==> port.Some? && resolution.Some? && AccelResolution(resolution.value)
    ensures r.Failure? ==> r.error == ValueError
    ensures r.Success? ==> |r.value| == |port.value| + 1 && r.value[..|port.value|] == port.value
    ensures r.Success? ==> forall d :: Execute(d, r.value[|port.value|]) == d.(accelerometerResolution := resolution.value)
  {
    if resolution.None? || resolution.value !in AccelerometerResolutions then Failure(ValueError)
    else
      var command := ResolutionCommand(AccelerometerResolutions[resolution.value]);
      SendMessage(port, Some(command))
  }

  /** The command `set_gyro_resolution` writes for an accepted resolution. */
  function GyroCommand(resolution: int): string
    requires GyroResolution(resolution)
  {
    ResolutionCommand(GyroResolutions[resolution])
  }

  /** The command `set_accelerometer_resolution` writes for an accepted resolution. */
  function AccelCommand(resolution: int): string
    requires AccelResolution(resolution)
  {
    ResolutionCommand(AccelerometerResolutions[resolution])
  }

  predicate ValidGyro(c: Config)
  {
    c.gyroscopeResolution.Some? && GyroResolution(c.gyroscopeResolution.value)
  }

  predicate ValidAccel(c: Config)
  {
    c.accelerometerResolution.Some? && AccelResolution(c.accelerometerResolution.value)
  }

  /** What the device does with what it reads: `var0`..`var3` and
      `var4`..`var7` set the gyro and accelerometer resolutions, `vara`,
      `varg`, `varc`, `varq`, `vare` and `varh` flip one streaming flag, and
      anything else (the status request `vars` among them) changes nothing. */
  datatype Device = Device(gyroscopeResolution: int, accelerometerResolution: int, streams: Streams)

  function Execute(d: Device, command: string): Device
  {
    if |command| != 4 || command[..3] != "var" then d
    else
      var s := d.streams;
      match command[3]
      case '0' => d.(gyroscopeResolution := 250)
      case '1' => d.(gyroscopeResolution := 500)
      case '2' => d.(gyroscopeResolution := 1000)
      case '3' => d.(gyroscopeResolution := 2000)
      case '4' => d.(accelerometerResolution := 2)
      case '5' => d.(accelerometerResolution := 4)
      case '6' => d.(accelerometerResolution := 8)
      case '7' => d.(accelerometerResolution := 16)
      case 'a' => d.(streams := s.(accelerometer := !s.accelerometer))
      case 'g' => d.(streams := s.(gyroscope := !s.gyroscope))
      case 'c' => d.(streams := s.(magnetometer := !s.magnetometer))
      case 'q' => d.(streams := s.(quaternion := !s.quaternion))
      case 'e' => d.(streams := s.(euler := !s.euler))
      case 'h' => d.(streams := s.(heading := !s.heading))
      case _ => d
  }

  function ExecuteAll(d: Device, commands: seq<string>): Device
    decreases |commands|
  {
    if commands == [] then d else ExecuteAll(Execute(d, commands[0]), commands[1..])
  }

  lemma {:induction false} ExecuteAllAppend(d: Device, a: seq<string>, b: seq<string>)
    ensures ExecuteAll(d, a + b) == ExecuteAll(ExecuteAll(d, a), b)
    decreases |a|
  {
    if a == [] {
      assert a + b == b;
    } else {
      assert a + b != [] && (a + b)[0] == a[0] && (a + b)[1..] == a[1..] + b;
      ExecuteAllAppend(Execute(d, a[0]), a[1..], b);
    }
  }

  /** The messages written by one `set_configuration` call, and the
      exception that ended it early, if any. */
  datatype Emission = Emission(sent: Log, failure: Option<Error>)

  /** Runs one write step unless an earlier step has raised. */
  function Then(e: Emission, next: Result<Log>): Emission
  {
    if e.failure.Some? then e
    else match next
      case Success(log) => Emission(log, None)
      case Failure(err) => Emission(e.sent, Some(err))
  }

  /** The toggle commands in the order `set_configuration` tests them. */
  const ToggleOrder: seq<string> := ["vara", "varg", "varc", "varq", "vare", "varh"]

  /** The streaming flag that toggle k of `ToggleOrder` flips. */
  function FlagAt(s: Streams, k: nat): bool
    requires k < 6
  {
    match k
    case 0 => s.accelerometer
    case 1 => s.gyroscope
    case 2 => s.magnetometer
    case 3 => s.quaternion
    case 4 => s.euler
    case _ => s.heading
  }

  function When(b: bool, command: string): seq<string>
  {
    if b then [command] else []
  }

  /** The toggles `set_configuration` writes, in the order it tests the flags. */
  function Toggles(c: Streams, d: Streams): seq<string>
  {
    When(c.accelerometer != d.accelerometer, "vara") + When(c.gyroscope != d.gyroscope, "varg")
      + When(c.magnetometer != d.magnetometer, "varc") + When(c.quaternion != d.quaternion, "varq")
      + When(c.euler != d.euler, "vare") + When(c.heading != d.heading, "varh")
  }

  /** One `if current[flag] ^ new[flag]: send_message(port, command)` step. */
  function Toggle(e: Emission, differ: bool, command: string): (r: Emission)
    requires command in ToggleOrder
    ensures e.failure.None? ==> r == Emission(e.sent + When(differ, command), None)
    ensures e.failure.Some? ==> r == e
  {
    assert Ascii(command);
    Then(e, if differ then SendMessage(Some(e.sent), Some(command)) else Success(e.sent))
  }

  /** The six toggles of `set_configuration`, in source order. */
  function SendToggles(e: Emission, current: Streams, desired: Streams): (r: Emission)
    ensures e.failure.None? ==> r == Emission(e.sent + Toggles(current, desired), None)
    ensures e.failure.Some? ==> r == e
  {
    var c, d := current, desired;
    var e1 := Toggle(e, c.accelerometer != d.accelerometer, "vara");
    var e2 := Toggle(e1, c.gyroscope != d.gyroscope, "varg");
    var e3 := Toggle(e2, c.magnetometer != d.magnetometer, "varc");
    var e4 := Toggle(e3, c.quaternion != d.quaternion, "varq");
    var e5 := Toggle(e4, c.euler != d.euler, "vare");
    AppendToggles(e.sent, c, d);
    Toggle(e5, c.heading != d.heading, "varh")
  }

  /** Appending the toggle list is appending its six parts one by one. */
  lemma AppendToggles(s: seq<string>, c: Streams, d: Streams)
    ensures s + Toggles(c, d)
      == s + When(c.accelerometer != d.accelerometer, "vara") + When(c.gyroscope != d.gyroscope, "varg")
         + When(c.magnetometer != d.magnetometer, "varc") + When(c.quaternion != d.quaternion, "varq")
         + When(c.euler != d.euler, "vare") + When(c.heading != d.heading, "varh")
  {
    var a, b := When(c.accelerometer != d.accelerometer, "vara"), When(c.gyroscope != d.gyroscope, "varg");
    var m, q := When(c.magnetometer != d.magnetometer, "varc"), When(c.quaternion != d.quaternion, "varq");
    var u, h := When(c.euler != d.euler, "vare"), When(c.heading != d.heading, "varh");
    Associative(s, a + b + m + q + u, h);
    Associative(s, a + b + m + q, u);
    Associative(s, a + b + m, q);
    Associative(s, a + b, m);
    Associative(s, a, b);
  }

  /** `set_configuration`: both configurations are required; the gyro and
      accelerometer resolution commands of the new configuration are written
      first, then one toggle for each streaming flag whose current and new
      values differ (`^`). */
  function SetConfiguration(current: Option<Config>, desired: Option<Config>): (e: Emission)
    ensures current.None? || desired.None? ==> e == Emission([], Some(ValueError))
    ensures current.Some? && desired.Some? && !ValidGyro(desired.value) ==> e == Emission([], Some(ValueError))
    ensures current.Some? && desired.Some? && ValidGyro(desired.value) && !ValidAccel(desired.value) ==>
      e == Emission([GyroCommand(desired.value.gyroscopeResolution.value)], Some(ValueError))
    ensures current.Some? && desired.Some? && ValidGyro(desired.value) && ValidAccel(desired.value) ==>
      e == Emission([GyroCommand(desired.value.gyroscopeResolution.value),
                     AccelCommand(desired.value.accelerometerResolution.value)]
                    + Toggles(current.value.streams, desired.value.streams), None)
  {
    if current.None? || desired.None? then Emission([], Some(ValueError))
    else
      var g, a := desired.value.gyroscopeResolution, desired.value.accelerometerResolution;
      var e1 := Then(Emission([], None), SetGyroResolution(Some([]), g));
      assert !ValidGyro(desired.value) ==> e1 == Emission([], Some(ValueError));
      assert ValidGyro(desired.value) ==> e1 == Emission([GyroCommand(g.value)], None);
      var e2 := Then(e1, SetAccelerometerResolution(Some(e1.sent), a));
      assert ValidGyro(desired.value) && ValidAccel(desired.value) ==>
        e2 == Emission([GyroCommand(g.value), AccelCommand(a.value)], None);
      SendToggles(e2, current.value.streams, desired.value.streams)
  }

  /** Where a toggle command stands in `ToggleOrder`. */
  function Position(command: string): (k: nat)
    requires command in ToggleOrder
    ensures k < 6 && ToggleOrder[k] == command
  {
    if command == "vara" then 0
    else if command == "varg" then 1
    else if command == "varc" then 2
    else if command == "varq" then 3
    else if command == "vare" then 4
    else 5
  }

  /** Every entry is a toggle command standing before position k of `ToggleOrder`. */
  predicate Before(t: seq<string>, k: nat)
  {
    forall x | x in t :: x in ToggleOrder && Position(x) < k
  }

  /** The entries follow `ToggleOrder` strictly, so none repeats. */
  predicate InToggleOrder(t: seq<string>)
    requires Before(t, 6)
  {
    forall i, j | 0 <= i < j < |t| :: Position(t[i]) < Position(t[j])
  }

  lemma {:induction false} AppendInOrder(t: seq<string>, b: bool, k: nat)
    requires k < 6 && Before(t, k) && InToggleOrder(t)
    ensures Before(t + When(b, ToggleOrder[k]), k + 1)
    ensures InToggleOrder(t + When(b, ToggleOrder[k]))
  {
    var u := t + When(b, ToggleOrder[k]);
    forall x | x in u
      ensures x in ToggleOrder && Position(x) < k + 1
    {
      if x !in t {
        assert x == ToggleOrder[k];
      }
    }
    forall i, j | 0 <= i < j < |u|
      ensures Position(u[i]) < Position(u[j])
    {
      if j >= |t| {
        assert u[j] == ToggleOrder[k] && u[i] == t[i];
        assert u[i] in t;
      } else {
        assert u[i] == t[i] && u[j] == t[j];
      }
    }
  }

  /** The toggle `set_configuration` writes for flag k, if any. */
  function Piece(c: Streams, d: Streams, k: nat): seq<string>
    requires k < 6
  {
    When(FlagAt(c, k) != FlagAt(d, k), ToggleOrder[k])
  }

  lemma TogglesAsPieces(c: Streams, d: Streams)
    ensures Toggles(c, d)
      == Piece(c, d, 0) + Piece(c, d, 1) + Piece(c, d, 2) + Piece(c, d, 3) + Piece(c, d, 4) + Piece(c, d, 5)
  {
  }

  /** The six toggle commands differ in their last character. */
  lemma DistinctToggles(j: nat, k: nat)
    requires j < 6 && k < 6 && j != k
    ensures ToggleOrder[j] != ToggleOrder[k]
  {
    assert ToggleOrder[j][3] != ToggleOrder[k][3];
  }

  /** Toggle k of `ToggleOrder` can only come from the piece for flag k. */
  lemma PieceMember(c: Streams, d: Streams, j: nat, k: nat)
    requires j < 6 && k < 6
    ensures ToggleOrder[k] in Piece(c, d, j) <==> j == k && FlagAt(c, k) != FlagAt(d, k)
  {
    if j != k {
      DistinctToggles(j, k);
    }
  }

  /** The toggles for the flags before position j of `ToggleOrder`. */
  function PiecesBefore(c: Streams, d: Streams, j: nat): seq<string>
    requires j <= 6
  {
    if j == 0 then [] else PiecesBefore(c, d, j - 1) + Piece(c, d, j - 1)
  }

  lemma AllPieces(c: Streams, d: Streams)
    ensures Toggles(c, d) == PiecesBefore(c, d, 6)
  {
    TogglesAsPieces(c, d);
    var p0, p1, p2, p3, p4, p5 := Piece(c, d, 0), Piece(c, d, 1), Piece(c, d, 2), Piece(c, d, 3), Piece(c, d, 4), Piece(c, d, 5);
    assert PiecesBefore(c, d, 1) == [] + p0 == p0;
    assert PiecesBefore(c, d, 2) == p0 + p1;
    assert PiecesBefore(c, d, 3) == p0 + p1 + p2;
    assert PiecesBefore(c, d, 4) == p0 + p1 + p2 + p3;
    assert PiecesBefore(c, d, 5) == p0 + p1 + p2 + p3 + p4;
    assert PiecesBefore(c, d, 6) == p0 + p1 + p2 + p3 + p4 + p5;
  }

  lemma {:induction false} PiecesBeforeMember(c: Streams, d: Streams, j: nat, k: nat)
    requires j <= 6 && k < 6
    ensures ToggleOrder[k] in PiecesBefore(c, d, j) <==> k < j && FlagAt(c, k) != FlagAt(d, k)
  {
    if j > 0 {
      PieceMember(c, d, j - 1, k);
      PiecesBeforeMember(c, d, j - 1, k);
    }
  }

  lemma ToggleWritten(c: Streams, d: Streams, k: nat)
    requires k < 6
    ensures ToggleOrder[k] in Toggles(c, d) <==> FlagAt(c, k) != FlagAt(d, k)
  {
    AllPieces(c, d);
    PiecesBeforeMember(c, d, 6, k);
  }

  /** `set_configuration` writes each toggle of `ToggleOrder` exactly when
      its flag differs between the current and the new configuration. */
  lemma TogglesExactlyDiffering(c: Streams, d: Streams)
    ensures forall k | 0 <= k < 6 :: ToggleOrder[k] in Toggles(c, d) <==> FlagAt(c, k) != FlagAt(d, k)
  {
    forall k | 0 <= k < 6
      ensures ToggleOrder[k] in Toggles(c, d) <==> FlagAt(c, k) != FlagAt(d, k)
    {
      ToggleWritten(c, d, k);
    }
  }

  lemma FirstPiecesOrdered(c: Streams, d: Streams)
    ensures var t := Piece(c, d, 0) + Piece(c, d, 1) + Piece(c, d, 2);
      Before(t, 3) && InToggleOrder(t)
  {
    var p0, p1 := Piece(c, d, 0), Piece(c, d, 1);
    AppendInOrder([], FlagAt(c, 0) != FlagAt(d, 0), 0);
    assert [] + p0 == p0;
    AppendInOrder(p0, FlagAt(c, 1) != FlagAt(d, 1), 1);
    AppendInOrder(p0 + p1, FlagAt(c, 2) != FlagAt(d, 2), 2);
  }

  lemma PiecesOrdered(c: Streams, d: Streams)
    ensures var t := Piece(c, d, 0) + Piece(c, d, 1) + Piece(c, d, 2) + Piece(c, d, 3) + Piece(c, d, 4) + Piece(c, d, 5);
      Before(t, 6) && InToggleOrder(t)
  {
    var t3 := Piece(c, d, 0) + Piece(c, d, 1) + Piece(c, d, 2);
    var p3, p4 := Piece(c, d, 3), Piece(c, d, 4);
    FirstPiecesOrdered(c, d);
    AppendInOrder(t3, FlagAt(c, 3) != FlagAt(d, 3), 3);
    AppendInOrder(t3 + p3, FlagAt(c, 4) != FlagAt(d, 4), 4);
    AppendInOrder(t3 + p3 + p4, FlagAt(c, 5) != FlagAt(d, 5), 5);
  }

  /** The toggles come in `ToggleOrder`, so none is written twice. */
  lemma TogglesOrdered(c: Streams, d: Streams)
    ensures Before(Toggles(c, d), 6) && InToggleOrder(Toggles(c, d))
  {
    PiecesOrdered(c, d);
    TogglesAsPieces(c, d);
  }

  /** Streaming flags with flag k of `ToggleOrder` flipped. */
  function Flip(s: Streams, k: nat): (r: Streams)
    requires k < 6
  {
    match k
    case 0 => s.(accelerometer := !s.accelerometer)
    case 1 => s.(gyroscope := !s.gyroscope)
    case 2 => s.(magnetometer := !s.magnetometer)
    case 3 => s.(quaternion := !s.quaternion)
    case 4 => s.(euler := !s.euler)
    case _ => s.(heading := !s.heading)
  }

  /** Toggle k of `ToggleOrder` flips flag k and nothing else. */
  lemma ExecuteToggle(dev: Device, b: bool, k: nat)
    requires k < 6
    ensures ExecuteAll(dev, When(b, ToggleOrder[k])) == if b then dev.(streams := Flip(dev.streams, k)) else dev
  {
  }

  /** The effect of the toggle for flag k on a device whose flag k is still
      the current configuration's. */
  lemma PieceEffect(dev: Device, c: Streams, d: Streams, k: nat)
    requires k < 6
    ensures var n := ExecuteAll(dev, Piece(c, d, k));
      && n.gyroscopeResolution == dev.gyroscopeResolution
      && n.accelerometerResolution == dev.accelerometerResolution
      && (FlagAt(dev.streams, k) == FlagAt(c, k) ==> FlagAt(n.streams, k) == FlagAt(d, k))
      && forall j | 0 <= j < 6 && j != k :: FlagAt(n.streams, j) == FlagAt(dev.streams, j)
  {
    ExecuteToggle(dev, FlagAt(c, k) != FlagAt(d, k), k);
  }

  lemma SameFlags(s: Streams, t: Streams)
    requires forall j | 0 <= j < 6 :: FlagAt(s, j) == FlagAt(t, j)
    ensures s == t
  {
    assert FlagAt(s, 0) == FlagAt(t, 0) && FlagAt(s, 1) == FlagAt(t, 1) && FlagAt(s, 2) == FlagAt(t, 2);
    assert FlagAt(s, 3) == FlagAt(t, 3) && FlagAt(s, 4) == FlagAt(t, 4) && FlagAt(s, 5) == FlagAt(t, 5);
  }

  /** After the first k toggles, a device that started as `dev` streaming as
      `c` has the flags before k set as in `d` and the others still as in `c`. */
  predicate Midway(n: Device, dev: Device, c: Streams, d: Streams, k: nat)
  {
    && n.gyroscopeResolution == dev.gyroscopeResolution
    && n.accelerometerResolution == dev.accelerometerResolution
    && (forall j | 0 <= j < k && j < 6 :: FlagAt(n.streams, j) == FlagAt(d, j))
    && (forall j | k <= j < 6 :: FlagAt(n.streams, j) == FlagAt(c, j))
  }

  lemma PieceAdvances(n: Device, dev: Device, c: Streams, d: Streams, k: nat)
    requires k < 6 && Midway(n, dev, c, d, k)
    ensures Midway(ExecuteAll(n, Piece(c, d, k)), dev, c, d, k + 1)
  {
    PieceEffect(n, c, d, k);
  }

  /** Running the toggles on a device streaming as `c` leaves it streaming
      as `d`, with its resolutions untouched. */
  lemma TogglesReachDesired(dev: Device, c: Streams, d: Streams)
    requires dev.streams == c
    ensures ExecuteAll(dev, Toggles(c, d)) == dev.(streams := d)
  {
    var p0, p1, p2, p3, p4, p5 := Piece(c, d, 0), Piece(c, d, 1), Piece(c, d, 2), Piece(c, d, 3), Piece(c, d, 4), Piece(c, d, 5);
    TogglesAsPieces(c, d);
    ExecuteAllAppend(dev, p0 + p1 + p2 + p3 + p4, p5);
    ExecuteAllAppend(dev, p0 + p1 + p2 + p3, p4);
    ExecuteAllAppend(dev, p0 + p1 + p2, p3);
    ExecuteAllAppend(dev, p0 + p1, p2);
    ExecuteAllAppend(dev, p0, p1);
    var d1 := ExecuteAll(dev, p0);
    var d2 := ExecuteAll(d1, p1);
    var d3 := ExecuteAll(d2, p2);
    var d4 := ExecuteAll(d3, p3);
    var d5 := ExecuteAll(d4, p4);
    var d6 := ExecuteAll(d5, p5);
    PieceAdvances(dev, dev, c, d, 0);
    PieceAdvances(d1, dev, c, d, 1);
    PieceAdvances(d2, dev, c, d, 2);
    PieceAdvances(d3, dev, c, d, 3);
    PieceAdvances(d4, dev, c, d, 4);
    PieceAdvances(d5, dev, c, d, 5);
    SameFlags(d6.streams, d);
  }

  /** What `set_configuration` writes takes a device in the current state to
      the new configuration's resolutions and streaming flags. */
  lemma SetConfigurationReachesDesired(current: Config, desired: Config, dev: Device)
    requires ValidGyro(desired) && ValidAccel(desired) && dev.streams == current.streams
    ensures SetConfiguration(Some(current), Some(desired)).failure.None?
    ensures ExecuteAll(dev, SetConfiguration(Some(current), Some(desired)).sent)
      == Device(desired.gyroscopeResolution.value, desired.accelerometerResolution.value, desired.streams)
  {
    var g, a := GyroCommand(desired.gyroscopeResolution.value), AccelCommand(desired.accelerometerResolution.value);
    var t := Toggles(current.streams, desired.streams);
    var sent := SetConfiguration(Some(current), Some(desired)).sent;
    assert sent == [g, a] + t;
    ExecuteAllAppend(dev, [g, a], t);
    var mid := ExecuteAll(dev, [g, a]);
    assert [g, a][1..] == [a];
    assert ExecuteAll(Execute(dev, g), [a]) == ExecuteAll(Execute(Execute(dev, g), a), []);
    assert mid == Execute(Execute(dev, g), a);
    TogglesReachDesired(mid, current.streams, desired.streams);
  }

  /** The second step of the serial driver's constructor: whatever the
      device reports, applying `basic_configuration` never raises, writes
      `var3` (2000) and `var4` (2) first, and leaves the device streaming
      gyro samples only at those resolutions. */
  lemma BasicConfigurationApplies(current: Config, dev: Device)
    requires dev.streams == current.streams
    ensures var e := SetConfiguration(Some(current), Some(BasicConfiguration));
      && e.failure.None?
      && e.sent == ["var3", "var4"] + Toggles(current.streams, BasicConfiguration.streams)
      && ExecuteAll(dev, e.sent) == Device(2000, 2, Streams(false, false, false, false, true, false))
  {
    assert GyroCommand(2000) == "var3";
    assert AccelCommand(2) == "var4";
    SetConfigurationReachesDesired(current, BasicConfiguration, dev);
  }

  /** With equal streaming flags only the two resolution commands are written. */
  lemma SameStreamsOnlyResolutions(current: Config, desired: Config)
    requires ValidGyro(desired) && ValidAccel(desired) && current.streams == desired.streams
    ensures SetConfiguration(Some(current), Some(desired))
      == Emission([GyroCommand(desired.gyroscopeResolution.value), AccelCommand(desired.accelerometerResolution.value)], None)
  {
    assert Toggles(current.streams, desired.streams) == [];
  }

  /** Every resolution a status payload decodes to is one the setters accept,
      so reapplying a decoded configuration never raises. */
  lemma ParsedResolutionsAccepted(message: seq<byte>, current: Config)
    requires ParseStatus(message).Success?
    requires ParseStatus(message).value.gyroscopeResolution.Some?
    requires ParseStatus(message).value.accelerometerResolution.Some?
    ensures SetConfiguration(Some(current), Some(ParseStatus(message).value)).failure.None?
  {
    var c := ParseStatus(message).value;
    assert c.gyroscopeResolution == GyroResolutionOf(message[1]);
    assert c.accelerometerResolution == AccelResolutionOf(message[1]);
  }
}

=== FILE: common.dfy ===
/** Shared failure-carrying datatypes and the exceptions the drivers raise. */
module Common {

  datatype Option<+T> = None | Some(value: T)

  datatype Result<+T> = Success(value: T) | Failure(error: Error)

  /** The Python exceptions that the driver code raises or lets escape.
      `TransportError` stands for the reader raising once the device has
      nothing more to deliver. */
  datatype Error =
    | ValueError
    | KeyError
    | IndexError
    | StructError
    | UnicodeEncodeError
    | TransportError

  /** Concatenation regroups freely. */
  lemma Associative<T>(x: seq<T>, y: seq<T>, z: seq<T>)
    ensures x + (y + z) == (x + y) + z
  {
  }
}

/** Bytes, bit tests, big-endian words and Python's indexing rules on `bytes`. */
module Bytes {
  import opened Common

  /** One octet as delivered by the serial port or the USB endpoint. */
  type byte = x: int | 0 <= x < 256

  function Pow2(k: nat): (r: nat)
    ensures r >= 1
  {
    if k == 0 then 1 else 2 * Pow2(k - 1)
  }

  /** Python's `x & (1 << k) != 0` on a non-negative integer. */
  predicate Bit(x: nat, k: nat)
  {
    (x / Pow2(k)) % 2 == 1
  }

  lemma MulAtLeast(a: int, d: int)
    requires a >= 1 && d > 0
    ensures a * d >= d
  {
    if a > 1 {
      MulAtLeast(a - 1, d);
      assert a * d == (a - 1) * d + d;
    }
  }

  /** Division is determined by any quotient and remainder that fit. */
  lemma DivModUnique(x: int, d: int, q: int, r: int)
    requires d > 0 && 0 <= r < d && x == q * d + r
    ensures x / d == q && x % d == r
  {
    var q', r' := x / d, x % d;
    assert x == q' * d + r';
    assert (q - q') * d == q * d - q' * d;
    if q > q' {
      MulAtLeast(q - q', d);
    } else if q < q' {
      MulAtLeast(q' - q, d);
    }
  }

  lemma Pow2Small()
    ensures Pow2(0) == 1 && Pow2(1) == 2 && Pow2(2) == 4 && Pow2(3) == 8
    ensures Pow2(4) == 16 && Pow2(5) == 32 && Pow2(6) == 64 && Pow2(7) == 128
  {
  }

  /** Bit k is set exactly when the remainder modulo 2^(k+1) reaches 2^k. */
  lemma BitAsRange(x: nat, k: nat)
    ensures Bit(x, k) <==> x % (2 * Pow2(k)) >= Pow2(k)
  {
    var p := Pow2(k);
    var q, r := x / (2 * p), x % (2 * p);
    assert x == q * (2 * p) + r;
    if r >= p {
      DivModUnique(x, p, 2 * q + 1, r - p);
      DivModUnique(2 * q + 1, 2, q, 1);
    } else {
      DivModUnique(x, p, 2 * q, r);
      DivModUnique(2 * q, 2, q, 0);
    }
  }

  /** The big-endian unsigned 32-bit integer of four bytes (struct format `>I`). */
  function BeU32(b: seq<byte>): (n: nat)
    requires |b| == 4
    ensures n < 0x1_0000_0000
    ensures n % 256 == b[3]
  {
    ((b[0] as int * 256 + b[1]) * 256 + b[2]) * 256 + b[3]
  }

  /** The four big-endian bytes of an unsigned 32-bit integer. */
  function U32Bytes(n: nat): (b: seq<byte>)
    requires n < 0x1_0000_0000
    ensures |b| == 4
    ensures BeU32(b) == n
  {
    var n1 := n / 256;
    var n2 := n1 / 256;
    assert n == n1 * 256 + n % 256 && n1 == n2 * 256 + n1 % 256;
    assert n1 < 0x100_0000 && n2 < 0x1_0000;
    [n2 / 256, n2 % 256, n1 % 256, n % 256]
  }

  /** Encoding a word read from four bytes gives those bytes back. */
  lemma U32BytesOfBeU32(b: seq<byte>)
    requires |b| == 4
    ensures U32Bytes(BeU32(b)) == b
  {
    var n := BeU32(b);
    var n2: int := b[0] as int * 256 + b[1];
    var n1: int := n2 * 256 + b[2];
    DivModUnique(n, 256, n1, b[3]);
    DivModUnique(n1, 256, n2, b[2]);
    DivModUnique(n2, 256, b[0], b[1]);
  }

  /** Python's `len(s[i:])` for a non-negative start index. */
  function LenFrom(s: seq<byte>, i: nat): (n: nat)
    ensures n <= |s|
    ensures n > 0 <==> i < |s|
    ensures i <= |s| ==> n + i == |s|
  {
    if i < |s| then |s| - i else 0
  }

  /** Python's `s[k]`: a negative index counts from the end, and `None`
      stands for the IndexError raised outside `-len(s) .. len(s) - 1`. */
  function PyIndex(s: seq<byte>, k: int): (r: Option<byte>)
    ensures r.None? <==> k >= |s| || k < -|s|
    ensures r.Some? ==> r.value == s[if k < 0 then |s| + k else k]
  {
    if 0 <= k < |s| then Some(s[k])
    else if -|s| <= k < 0 then Some(s[|s| + k])
    else None
  }

  /** Python's clamping of a slice bound against a sequence of length `n`. */
  function SliceBound(k: int, n: nat): (b: nat)
    ensures b <= n
    ensures 0 <= k <= n ==> b == k
  {
    if k < 0 then (if k + n < 0 then 0 else k + n)
    else if k > n then n
    else k
  }

  /** Python's `s[lo:hi]`, which never raises. */
  function PySlice(s: seq<byte>, lo: int, hi: int): (r: seq<byte>)
    ensures |r| <= |s|
    ensures 0 <= lo <= hi <= |s| ==> r == s[lo..hi]
    ensures 0 <= hi <= lo ==> r == []
  {
    var a := SliceBound(lo, |s|);
    var b := SliceBound(hi, |s|);
    if a <= b then s[a..b] else []
  }

  /** Python's `s[lo:]`: a suffix of `s`. */
  function PySliceFrom(s: seq<byte>, lo: int): (r: seq<byte>)
    ensures |r| <= |s|
    ensures r == s[|s| - |r|..]
    ensures 0 <= lo <= |s| ==> r == s[lo..]
    ensures -|s| <= lo < 0 ==> r == s[|s| + lo..]
  {
    PySlice(s, lo, |s|)
  }
}

=== FILE: frames.dfy ===
/** The message frame on the wire and the motion-sample payload, shared by
    the serial driver and the USB (CDC) driver. */
module Frames {
  import opened Common
  import opened Bytes

  /** `message_types`: the wire tag of each motion message kind. */
  const MessageTypes: map<string, char> := map["gyro" := 'g', "euler" := 'e', "magnet" := 'c', "accel" := 'a']

  /** The wire tag of a status message. */
  const StatusTag: char := 's'

  const StartMarker: byte := 0x01
  const Terminator: byte := 0x04

  /** A motion sample: the timestamp as a number and the three IEEE-754
      values x, y, z kept as their raw big-endian 4-byte words. */
  datatype Sample = Sample(ts: nat, x: seq<byte>, y: seq<byte>, z: seq<byte>)

  predicate ValidSample(s: Sample)
  {
    s.ts < 0x1_0000_0000 && |s.x| == 4 && |s.y| == 4 && |s.z| == 4
  }

  /** The 16 bytes that `struct.unpack(">Ifff", ...)` reads a sample from. */
  function PackSample(s: Sample): (b: seq<byte>)
    requires ValidSample(s)
    ensures |b| == 16
  {
    U32Bytes(s.ts) + s.x + s.y + s.z
  }

  /** `struct.unpack(">Ifff", message[:16])`: raises struct.error unless the
      message holds at least 16 bytes. */
  function UnpackSample(message: seq<byte>): (r: Result<Sample>)
    ensures r.Failure? <==> |message| < 16
    ensures r.Failure? ==> r.error == StructError
    ensures r.Success? ==> ValidSample(r.value) && PackSample(r.value) == message[..16]
    ensures r.Success? ==> r.value.ts == BeU32(message[..4])
  {
    if |message| < 16 then Failure(StructError)
    else
      var s := Sample(BeU32(message[0..4]), message[4..8], message[8..12], message[12..16]);
      U32BytesOfBeU32(message[0..4]);
      assert PackSample(s) == message[0..4] + message[4..8] + message[8..12] + message[12..16];
      assert message[..16] == message[0..4] + message[4..8] + message[8..12] + message[12..16];
      Success(s)
  }

  /** Unpacking a packed sample, whatever follows it, gives the sample back. */
  lemma UnpackPackSample(s: Sample, tail: seq<byte>)
    requires ValidSample(s)
    ensures UnpackSample(PackSample(s) + tail) == Success(s)
  {
    var m := PackSample(s) + tail;
    assert m[0..4] == U32Bytes(s.ts);
    assert m[4..8] == s.x;
    assert m[8..12] == s.y;
    assert m[12..16] == s.z;
  }

  /** The declared length counts the start marker, length, tag and
      terminator; `port.read(n)` of a non-positive count reads nothing. */
  function PayloadLength(length: byte): (n: nat)
    ensures n + 4 >= length
    ensures length >= 4 ==> n + 4 == length
    ensures length < 4 ==> n == 0
  {
    if length >= 4 then length - 4 else 0
  }

  /** One frame as it appears on the wire, after its start marker. */
  datatype Frame = Frame(length: byte, tag: byte, payload: seq<byte>, terminator: byte)

  /** The frame's bytes, start marker included. */
  function Encode(f: Frame): (b: seq<byte>)
    ensures |b| == |f.payload| + 4
    ensures b[0] == StartMarker && b[1] == f.length && b[2] == f.tag && b[|b| - 1] == f.terminator
  {
    [StartMarker, f.length, f.tag] + f.payload + [f.terminator]
  }

  /** Where the parts of a frame stand in a stream that holds it after `pre`. */
  lemma FrameAt(pre: seq<byte>, f: Frame, rest: seq<byte>)
    ensures var s, i, n := pre + Encode(f) + rest, |pre|, |f.payload|;
      && |s| == i + n + 4 + |rest|
      && s[..i] == pre
      && s[i] == StartMarker && s[i + 1] == f.length && s[i + 2] == f.tag
      && s[i + 3..i + 3 + n] == f.payload
      && s[i + 3 + n] == f.terminator
      && s[i + 3 + n..] == [f.terminator] + rest
      && s[i + 4 + n..] == rest
  {
    var s, i, n := pre + Encode(f) + rest, |pre|, |f.payload|;
    assert s[i..] == Encode(f) + rest;
    assert s[i..][3..3 + n] == f.payload;
    assert s[i..][3 + n..] == [f.terminator] + rest;
  }

  /** A frame whose payload has the size its length byte declares. */
  predicate WellSized(f: Frame)
  {
    |f.payload| == PayloadLength(f.length)
  }

  /** The frame is the one a reader waiting for `tag` accepts. */
  predicate Accepts(tag: char, f: Frame)
  {
    f.terminator == Terminator && f.tag as char == tag
  }

  /** The frame a device sends for a motion sample: length 20, the tag, the
      16 sample bytes and the terminator. */
  function SampleFrame(tag: char, s: Sample): (f: Frame)
    requires ValidSample(s) && tag as int < 256
    ensures WellSized(f) && Accepts(tag, f)
  {
    Frame(20, tag as int, PackSample(s), Terminator)
  }
}

=== FILE: serial_reader.dfy ===
/** The serial driver's frame reader (`get_message`, `get_configuration`):
    the port is a finite stream of bytes, and reading past its end is the
    IndexError that `port.read()[0]` raises once the read times out empty. */
module SerialReader {
  import opened Common
  import opened Bytes
  import opened Frames
  import opened Status
  import opened Commands

  /** Where the first start marker of the stream is: the loop that discards
      bytes until it reads 0x01. */
  function FirstStart(s: seq<byte>): (r: Option<nat>)
    ensures r.None? <==> StartMarker !in s
    ensures r.Some? ==> r.value < |s| && s[r.value] == StartMarker && StartMarker !in s[..r.value]
  {
    if s == [] then None
    else if s[0] == StartMarker then Some(0)
    else match FirstStart(s[1..])
      case None => None
      case Some(k) =>
        assert s[..k + 1] == [s[0]] + s[1..][..k];
        Some(k + 1)
  }

  /** One pass of the read loop: the bytes skipped before the start marker,
      the frame read after it, and the stream that remains. */
  datatype Attempt = Attempt(skipped: nat, frame: Frame, rest: seq<byte>)

  /** Skip to a start marker, then read the length, the tag, length - 4
      payload bytes (none when that is not positive) and the terminator.
      Running out of stream anywhere is an IndexError. */
  function ReadAttempt(s: seq<byte>): (r: Result<Attempt>)
    ensures r.Failure? ==> r.error == IndexError
    ensures r.Success? ==> var a := r.value;
      && a.skipped <= |s|
      && StartMarker !in s[..a.skipped]
      && WellSized(a.frame)
      && s == s[..a.skipped] + Encode(a.frame) + a.rest
    ensures r.Success? ==> |r.value.rest| < |s|
  {
    match FirstStart(s)
    case None => Failure(IndexError)
    case Some(k) =>
      if |s| < k + 3 then Failure(IndexError)
      else
        var n := PayloadLength(s[k + 1]);
        if |s| < k + n + 4 then Failure(IndexError)
        else Success(AttemptAt(s, k, n))
  }

  /** The frame of n payload bytes that starts at the start marker at k,
      and the stream after it. */
  function AttemptAt(s: seq<byte>, k: nat, n: nat): (a: Attempt)
    requires k + n + 4 <= |s| && s[k] == StartMarker
    ensures a.skipped == k && |a.frame.payload| == n && |a.rest| == |s| - k - n - 4
    ensures s == s[..k] + Encode(a.frame) + a.rest
  {
    FrameOfStream(s, k, n);
    Attempt(k, Frame(s[k + 1], s[k + 2], s[k + 3..k + 3 + n], s[k + 3 + n]), s[k + n + 4..])
  }

  /** The n + 4 bytes from a start marker at k are the encoding of the frame they spell. */
  lemma FrameOfStream(s: seq<byte>, k: nat, n: nat)
    requires k + n + 4 <= |s| && s[k] == StartMarker
    ensures s == s[..k] + Encode(Frame(s[k + 1], s[k + 2], s[k + 3..k + 3 + n], s[k + 3 + n])) + s[k + n + 4..]
  {
    var f := Frame(s[k + 1], s[k + 2], s[k + 3..k + 3 + n], s[k + 3 + n]);
    assert s[k..k + n + 4] == [s[k], s[k + 1], s[k + 2]] + s[k + 3..k + 3 + n] + [s[k + 3 + n]];
    assert s == s[..k] + s[k..k + n + 4] + s[k + n + 4..];
  }

  /** The first start marker after junk without one is the one that begins the frame. */
  lemma FirstStartOfLayout(junk: seq<byte>, f: Frame, rest: seq<byte>)
    requires StartMarker !in junk
    ensures FirstStart(junk + Encode(f) + rest) == Some(|junk|)
  {
    var s, k := junk + Encode(f) + rest, |junk|;
    FrameAt(junk, f, rest);
    assert s[k] in s;
    var v := FirstStart(s).value;
    assert forall j | 0 <= j < v :: s[..v][j] == s[j];
    assert forall j | 0 <= j < k :: s[j] == junk[j];
  }

  /** A stream laid out as junk without a start marker, a well-sized frame
      and anything after it is read back as exactly those three parts. */
  lemma ReadAttemptOfLayout(junk: seq<byte>, f: Frame, rest: seq<byte>)
    requires StartMarker !in junk && WellSized(f)
    ensures ReadAttempt(junk + Encode(f) + rest) == Success(Attempt(|junk|, f, rest))
  {
    var s, k, n := junk + Encode(f) + rest, |junk|, |f.payload|;
    FirstStartOfLayout(junk, f, rest);
    AttemptAtLayout(junk, f, rest);
    ReadAttemptAtStart(s, k, n);
  }

  lemma AttemptAtLayout(junk: seq<byte>, f: Frame, rest: seq<byte>)
    requires WellSized(f)
    ensures var s, k, n := junk + Encode(f) + rest, |junk|, |f.payload|;
      && k + n + 4 <= |s| && s[k] == StartMarker && PayloadLength(s[k + 1]) == n
      && AttemptAt(s, k, n) == Attempt(k, f, rest)
  {
    var s, k, n := junk + Encode(f) + rest, |junk|, |f.payload|;
    FrameAt(junk, f, rest);
    assert Frame(s[k + 1], s[k + 2], s[k + 3..k + 3 + n], s[k + 3 + n]) == f;
  }

  /** A first start marker followed by a complete frame is read as that frame. */
  lemma ReadAttemptAtStart(s: seq<byte>, k: nat, n: nat)
    requires FirstStart(s) == Some(k) && k + n + 4 <= |s| && s[k] == StartMarker && PayloadLength(s[k + 1]) == n
    ensures ReadAttempt(s) == Success(AttemptAt(s, k, n))
  {
  }

  /** Two well-sized frames whose encodings start two equal streams are equal. */
  lemma FrameOfEncoding(f: Frame, r: seq<byte>, g: Frame, q: seq<byte>)
    requires WellSized(f) && WellSized(g) && Encode(f) + r == Encode(g) + q
    ensures f == g && r == q
  {
    var s := Encode(f) + r;
    assert s[1] == f.length && s[1] == g.length;
    var n := |f.payload|;
    assert f.payload == s[3..3 + n] == g.payload;
    assert s[3 + n] == f.terminator && s[3 + n] == g.terminator;
    assert r == s[n + 4..] == q;
  }

  /** `e` occurs contiguously in `s`. */
  ghost predicate Occurs(e: seq<byte>, s: seq<byte>)
  {
    exists p, q :: s == p + e + q
  }

  lemma OccursAfter(e: seq<byte>, p: seq<byte>, s: seq<byte>)
    requires Occurs(e, s)
    ensures Occurs(e, p + s)
  {
    var a, b :| s == a + e + b;
    assert p + s == (p + a) + e + b;
  }

  /** The result of the retry loop: how many passes it made and what it
      ended with. */
  datatype Search = Search(attempts: nat, outcome: Result<Frame>)

  lemma FoundAfter(r: Search, p: seq<byte>, s: seq<byte>)
    requires r.outcome.Success? ==> Occurs(Encode(r.outcome.value), s)
    ensures r.outcome.Success? ==> Occurs(Encode(r.outcome.value), p + s)
  {
    if r.outcome.Success? {
      OccursAfter(Encode(r.outcome.value), p, s);
    }
  }

  /** The retry loop of `get_message` and `get_configuration`: a frame with
      a bad terminator or another tag is dropped and reading resumes after
      it. */
  function FindFrame(tag: char, s: seq<byte>): (r: Search)
    ensures r.attempts >= 1
    ensures r.outcome.Failure? ==> r.outcome.error == IndexError
    ensures ReadAttempt(s).Failure? ==> r == Search(1, Failure(IndexError))
    ensures r.outcome.Success? ==> var f := r.outcome.value;
      Accepts(tag, f) && WellSized(f) && Occurs(Encode(f), s)
    decreases |s|
  {
    match ReadAttempt(s)
    case Failure(e) => Search(1, Failure(e))
    case Success(a) =>
      var pre := s[..a.skipped] + Encode(a.frame);
      assert s == pre + a.rest;
      if Accepts(tag, a.frame) then
        assert s == s[..a.skipped] + Encode(a.frame) + a.rest;
        Search(1, Success(a.frame))
      else
        var r := FindFrame(tag, a.rest);
        FoundAfter(r, pre, a.rest);
        Search(r.attempts + 1, r.outcome)
  }

  /** A leading frame the loop accepts ends it on the first pass. */
  lemma FindFrameAccepts(tag: char, junk: seq<byte>, f: Frame, rest: seq<byte>)
    requires StartMarker !in junk && WellSized(f) && Accepts(tag, f)
    ensures FindFrame(tag, junk + Encode(f) + rest) == Search(1, Success(f))
  {
    ReadAttemptOfLayout(junk, f, rest);
  }

  /** A leading frame the loop rejects costs one pass and is otherwise
      invisible: the search continues on what follows it. */
  lemma FindFrameSkips(tag: char, junk: seq<byte>, f: Frame, rest: seq<byte>)
    requires StartMarker !in junk && WellSized(f) && !Accepts(tag, f)
    ensures var r := FindFrame(tag, rest);
      FindFrame(tag, junk + Encode(f) + rest) == Search(r.attempts + 1, r.outcome)
  {
    ReadAttemptOfLayout(junk, f, rest);
  }

  /** `get_message`: an unknown message type raises ValueError before
      reading; otherwise the first frame with terminator 0x04 and the
      type's tag is unpacked as a sample. */
  function GetMessage(mType: string, s: seq<byte>): (r: Result<Sample>)
    ensures mType !in MessageTypes ==> r == Failure(ValueError)
    ensures mType in MessageTypes && r.Failure? ==> r.error == IndexError || r.error == StructError
    ensures mType in MessageTypes ==>
      (r == Failure(IndexError) <==> FindFrame(MessageTypes[mType], s).outcome.Failure?)
    ensures mType in MessageTypes && FindFrame(MessageTypes[mType], s).outcome.Success? ==>
      (r.Success? <==> |FindFrame(MessageTypes[mType], s).outcome.value.payload| >= 16)
    ensures r.Success? ==> var search := FindFrame(MessageTypes[mType], s);
      && mType in MessageTypes
      && search.outcome.Success?
      && ValidSample(r.value)
      && |search.outcome.value.payload| >= 16
      && PackSample(r.value) == search.outcome.value.payload[..16]
      && r.value.ts == BeU32(search.outcome.value.payload[..4])
  {
    if mType !in MessageTypes then Failure(ValueError)
    else
      match FindFrame(MessageTypes[mType], s).outcome
      case Failure(e) => Failure(e)
      case Success(f) => UnpackSample(f.payload)
  }

  /** Round trip: a sample framed with the requested type's tag, after junk
      without a start marker, is read back unchanged. */
  lemma GetMessageOfSampleFrame(mType: string, junk: seq<byte>, s: Sample, rest: seq<byte>)
    requires mType in MessageTypes && StartMarker !in junk && ValidSample(s)
    ensures GetMessage(mType, junk + Encode(SampleFrame(MessageTypes[mType], s)) + rest) == Success(s)
  {
    var f := SampleFrame(MessageTypes[mType], s);
    FindFrameAccepts(MessageTypes[mType], junk, f, rest);
    UnpackPackSample(s, []);
    assert PackSample(s) + [] == PackSample(s);
  }

  /** Running `get_configuration`: the status requests it wrote (one per
      pass of its loop) and the decoded status or the exception. */
  datatype ConfigRun = ConfigRun(sent: Log, outcome: Result<Config>)

  /** The log after n passes, each of which calls `_ask_for_status` once. */
  function Requests(n: nat): (log: Log)
    ensures |log| == n && forall k | 0 <= k < n :: log[k] == StatusRequest
  {
    if n == 0 then [] else AskForStatus(Requests(n - 1)).value
  }

  /** `get_configuration`: each pass writes `vars` and reads one frame;
      the first status frame with terminator 0x04 is decoded. */
  function GetConfiguration(s: seq<byte>): (r: ConfigRun)
    ensures |r.sent| >= 1 && forall k | 0 <= k < |r.sent| :: r.sent[k] == StatusRequest
    ensures |r.sent| == FindFrame(StatusTag, s).attempts
    ensures r.outcome.Failure? ==> r.outcome.error == IndexError || r.outcome.error == StructError
    ensures r.outcome == Failure(IndexError) <==> FindFrame(StatusTag, s).outcome.Failure?
    ensures FindFrame(StatusTag, s).outcome.Success? ==>
      (r.outcome.Success? <==> |FindFrame(StatusTag, s).outcome.value.payload| >= 7)
    ensures r.outcome.Success? ==> var search := FindFrame(StatusTag, s);
      && search.outcome.Success?
      && |search.outcome.value.payload| >= 7
      && r.outcome == ParseStatus(search.outcome.value.payload)
  {
    var search := FindFrame(StatusTag, s);
    var outcome := match search.outcome
      case Failure(e) => Failure(e)
      case Success(f) => ParseStatus(f.payload);
    ConfigRun(Requests(search.attempts), outcome)
  }

  /** The frame a device sends for its status. */
  function StatusFrame(c: Config): (f: Frame)
    requires Describable(c)
    ensures WellSized(f) && Accepts(StatusTag, f)
  {
    Frame(11, StatusTag as int, EncodeStatus(c), Terminator)
  }

  /** Round trip: a status frame after junk is decoded to the configuration
      it describes, after a single status request. */
  lemma GetConfigurationOfStatusFrame(junk: seq<byte>, c: Config, rest: seq<byte>)
    requires StartMarker !in junk && Describable(c)
    ensures GetConfiguration(junk + Encode(StatusFrame(c)) + rest) == ConfigRun([StatusRequest], Success(c))
  {
    FindFrameAccepts(StatusTag, junk, StatusFrame(c), rest);
    ParseEncodeStatus(c);
    assert Requests(1) == [StatusRequest];
  }

  /** A frame that is not a terminated status frame costs one more status
      request and is otherwise skipped. */
  lemma GetConfigurationSkips(junk: seq<byte>, f: Frame, rest: seq<byte>)
    requires StartMarker !in junk && WellSized(f) && !Accepts(StatusTag, f)
    ensures var r := GetConfiguration(rest);
      GetConfiguration(junk + Encode(f) + rest) == ConfigRun([StatusRequest] + r.sent, r.outcome)
  {
    var s, r := junk + Encode(f) + rest, FindFrame(StatusTag, rest);
    assert FindFrame(StatusTag, s) == Search(r.attempts + 1, r.outcome) by {
      FindFrameSkips(StatusTag, junk, f, rest);
    }
    assert GetConfiguration(s).sent == [StatusRequest] + GetConfiguration(rest).sent by {
      OneMoreRequest(r.attempts);
    }
  }

  lemma OneMoreRequest(n: nat)
    ensures Requests(n + 1) == [StatusRequest] + Requests(n)
  {
  }
}

=== FILE: status.dfy ===
/** The device configuration and its decoding from a 7-byte status payload
    (`_parse_status_message`), with the inverse layout. */
module Status {
  import opened Common
  import opened Bytes

  /** The six streaming flags of the device. */
  datatype Streams = Streams(
    heading: bool,
    euler: bool,
    magnetometer: bool,
    quaternion: bool,
    gyroscope: bool,
    accelerometer: bool)

  /** The configuration record. Entries that a configuration may leave
      unset (`None` in the source's dictionaries) are options. */
  datatype Config = Config(
    magnetometerEnabled: Option<bool>,
    gyroscopeEnabled: Option<bool>,
    accelerometerEnabled: Option<bool>,
    gyroscopeResolution: Option<int>,
    accelerometerResolution: Option<int>,
    lowOutputRate: Option<bool>,
    streams: Streams)

  /** `basic_configuration` of the serial driver. */
  const BasicConfiguration: Config :=
    Config(None, None, None, Some(2000), Some(2), None, Streams(false, false, false, false, true, false))

  /** Gyro resolution from bits 7..4 of the resolution byte; the highest
      set bit wins. */
  function GyroResolutionOf(res: byte): (r: Option<int>)
    ensures r == Some(2000) <==> res >= 128
    ensures r == Some(1000) <==> 64 <= res < 128
    ensures r == Some(500) <==> 32 <= res < 64
    ensures r == Some(250) <==> 16 <= res < 32
    ensures r == None <==> res < 16
  {
    GyroBits(res);
    if Bit(res, 7) then Some(2000)
    else if Bit(res, 6) then Some(1000)
    else if Bit(res, 5) then Some(500)
    else if Bit(res, 4) then Some(250)
    else None
  }

  /** Accelerometer resolution from bits 3..0 of the resolution byte; the
      highest set bit wins. */
  function AccelResolutionOf(res: byte): (r: Option<int>)
    ensures r == Some(16) <==> res % 16 >= 8
    ensures r == Some(8) <==> 4 <= res % 16 < 8
    ensures r == Some(4) <==> 2 <= res % 16 < 4
    ensures r == Some(2) <==> res % 16 == 1
    ensures r == None <==> res % 16 == 0
  {
    AccelBits(res);
    if Bit(res, 3) then Some(16)
    else if Bit(res, 2) then Some(8)
    else if Bit(res, 1) then Some(4)
    else if Bit(res, 0) then Some(2)
    else None
  }

  /** Bits 7..4 of a byte, each read below the higher ones. */
  lemma GyroBits(x: byte)
    ensures Bit(x, 7) <==> x >= 128
    ensures x < 128 ==> (Bit(x, 6) <==> x >= 64)
    ensures x < 64 ==> (Bit(x, 5) <==> x >= 32)
    ensures x < 32 ==> (Bit(x, 4) <==> x >= 16)
  {
    Pow2Small();
    BitAsRange(x, 7); BitAsRange(x, 6); BitAsRange(x, 5); BitAsRange(x, 4);
    DivModUnique(x, 256, 0, x);
    if x < 128 { DivModUnique(x, 128, 0, x); }
    if x < 64 { DivModUnique(x, 64, 0, x); }
    if x < 32 { DivModUnique(x, 32, 0, x); }
  }

  /** Bits 3..0 of a byte, each read below the higher ones. */
  lemma AccelBits(x: byte)
    ensures Bit(x, 3) <==> x % 16 >= 8
    ensures x % 16 < 8 ==> (Bit(x, 2) <==> x % 16 >= 4)
    ensures x % 16 < 4 ==> (Bit(x, 1) <==> x % 16 >= 2)
    ensures x % 16 < 2 ==> (Bit(x, 0) <==> x % 16 == 1)
  {
    Pow2Small();
    BitAsRange(x, 3); BitAsRange(x, 2); BitAsRange(x, 1); BitAsRange(x, 0);
    var q, y := x / 16, x % 16;
    if y < 8 { DivModUnique(x, 8, 2 * q, y); }
    if y < 4 { DivModUnique(x, 4, 4 * q, y); }
    if y < 2 { DivModUnique(x, 2, 8 * q, y); }
  }

  /** Decodes a status payload: enable bits in byte 0, the resolution
      nibbles in byte 1, the low-output bit in byte 2 and the streaming bits
      in the big-endian word of bytes 3..6. Fewer than 7 bytes make
      `struct.unpack` raise. */
  function ParseStatus(message: seq<byte>): (r: Result<Config>)
    ensures r.Failure? <==> |message| < 7
    ensures r.Failure? ==> r.error == StructError
    ensures r.Success? ==> var c := r.value;
      && c.magnetometerEnabled == Some(message[0] % 8 >= 4)
      && c.gyroscopeEnabled == Some(message[0] % 4 >= 2)
      && c.accelerometerEnabled == Some(message[0] % 2 == 1)
      && c.lowOutputRate == Some(message[2] % 2 == 1)
      && c.gyroscopeResolution == GyroResolutionOf(message[1])
      && c.accelerometerResolution == AccelResolutionOf(message[1])
      && (c.gyroscopeResolution == None <==> message[1] < 16)
      && (c.accelerometerResolution == None <==> message[1] % 16 == 0)
      && c.streams.heading == (message[6] % 128 >= 64)
      && c.streams.euler == (message[6] % 32 >= 16)
      && c.streams.magnetometer == (message[6] % 16 >= 8)
      && c.streams.quaternion == (message[6] % 8 >= 4)
      && c.streams.gyroscope == (message[6] % 4 >= 2)
      && c.streams.accelerometer == (message[6] % 2 == 1)
  {
    if |message| < 7 then Failure(StructError)
    else
      var status, res, lowOutput, data := message[0], message[1], message[2], BeU32(message[3..7]);
      LowByteRemainders(message[3..7]);
      BitAsRange(status, 2); BitAsRange(status, 1); BitAsRange(status, 0); BitAsRange(lowOutput, 0);
      Success(Config(
        Some(Bit(status, 2)),
        Some(Bit(status, 1)),
        Some(Bit(status, 0)),
        GyroResolutionOf(res),
        AccelResolutionOf(res),
        Some(Bit(lowOutput, 0)),
        StreamsOf(data)))
  }

  /** The streaming flags of the status word: bits 6, 4, 3, 2, 1 and 0. */
  function StreamsOf(data: nat): (s: Streams)
    ensures s.heading == (data % 128 >= 64)
    ensures s.euler == (data % 32 >= 16)
    ensures s.magnetometer == (data % 16 >= 8)
    ensures s.quaternion == (data % 8 >= 4)
    ensures s.gyroscope == (data % 4 >= 2)
    ensures s.accelerometer == (data % 2 == 1)
  {
    BitAsRange(data, 6); BitAsRange(data, 4); BitAsRange(data, 3);
    BitAsRange(data, 2); BitAsRange(data, 1); BitAsRange(data, 0);
    Streams(Bit(data, 6), Bit(data, 4), Bit(data, 3), Bit(data, 2), Bit(data, 1), Bit(data, 0))
  }

  /** The low seven bits of a big-endian word are those of its last byte. */
  lemma LowByteRemainders(b: seq<byte>)
    requires |b| == 4
    ensures BeU32(b) % 128 == b[3] % 128 && BeU32(b) % 32 == b[3] % 32
    ensures BeU32(b) % 16 == b[3] % 16 && BeU32(b) % 8 == b[3] % 8
    ensures BeU32(b) % 4 == b[3] % 4 && BeU32(b) % 2 == b[3] % 2
  {
    var w := BeU32(b);
    var q := w / 256;
    DivModUnique(w, 256, q, b[3]);
    DivModUnique(w, 128, 2 * q + b[3] / 128, b[3] % 128);
    DivModUnique(w, 32, 8 * q + b[3] / 32, b[3] % 32);
    DivModUnique(w, 16, 16 * q + b[3] / 16, b[3] % 16);
    DivModUnique(w, 8, 32 * q + b[3] / 8, b[3] % 8);
    DivModUnique(w, 4, 64 * q + b[3] / 4, b[3] % 4);
    DivModUnique(w, 2, 128 * q + b[3] / 2, b[3] % 2);
  }

  /** Only bits 2..0 of byte 0 matter: the other bits have no effect. */
  lemma EnableBitsOnly(p: seq<byte>, q: seq<byte>)
    requires |p| >= 7 && |q| >= 7
    requires p[0] % 8 == q[0] % 8 && p[1..7] == q[1..7]
    ensures ParseStatus(p) == ParseStatus(q)
  {
    LowBitsOfLowBits(p[0]);
    LowBitsOfLowBits(q[0]);
    assert p[1] == q[1] && p[2] == q[2] && p[6] == q[6];
    var c, d := ParseStatus(p).value, ParseStatus(q).value;
    assert c.gyroscopeResolution == GyroResolutionOf(p[1]);
    assert d.gyroscopeResolution == GyroResolutionOf(q[1]);
    assert c.accelerometerResolution == AccelResolutionOf(p[1]);
    assert d.accelerometerResolution == AccelResolutionOf(q[1]);
    assert c.streams == d.streams;
  }

  /** The low two bits and the low bit of x are those of x mod 8. */
  lemma LowBitsOfLowBits(x: nat)
    ensures x % 4 == (x % 8) % 4 && x % 2 == (x % 8) % 2
  {
    DivModUnique(x, 4, 2 * (x / 8) + (x % 8) / 4, (x % 8) % 4);
    DivModUnique(x, 2, 4 * (x / 8) + (x % 8) / 2, (x % 8) % 2);
  }

  /** Each nibble of the resolution byte decides only its own field. */
  lemma NibblesIndependent(a: byte, b: byte)
    ensures a / 16 == b / 16 ==> GyroResolutionOf(a) == GyroResolutionOf(b)
    ensures a % 16 == b % 16 ==> AccelResolutionOf(a) == AccelResolutionOf(b)
  {
  }

  /** Of the streaming word only bits 0..4 and 6 matter: bit 5 and bits 7
      and up have no effect. */
  lemma StreamWordIgnoresOtherBits(p: seq<byte>, q: seq<byte>)
    requires |p| >= 7 && |q| >= 7 && p[..3] == q[..3]
    requires BeU32(p[3..7]) % 32 == BeU32(q[3..7]) % 32
    requires Bit(BeU32(p[3..7]), 6) == Bit(BeU32(q[3..7]), 6)
    ensures ParseStatus(p) == ParseStatus(q)
  {
    assert p[0] == q[0] && p[1] == q[1] && p[2] == q[2];
    var wp, wq := BeU32(p[3..7]), BeU32(q[3..7]);
    RemaindersOf32(wp);
    RemaindersOf32(wq);
    BitAsRange(wp, 6);
    BitAsRange(wq, 6);
    assert StreamsOf(wp) == StreamsOf(wq);
  }

  lemma RemaindersOf32(x: nat)
    ensures x % 16 == (x % 32) % 16 && x % 8 == (x % 32) % 8
    ensures x % 4 == (x % 32) % 4 && x % 2 == (x % 32) % 2
  {
    DivModUnique(x, 16, 2 * (x / 32) + (x % 32) / 16, (x % 32) % 16);
    DivModUnique(x, 8, 4 * (x / 32) + (x % 32) / 8, (x % 32) % 8);
    DivModUnique(x, 4, 8 * (x / 32) + (x % 32) / 4, (x % 32) % 4);
    DivModUnique(x, 2, 16 * (x / 32) + (x % 32) / 2, (x % 32) % 2);
  }

  /** The resolutions a status payload can carry. */
  predicate GyroResolution(r: int) { r == 250 || r == 500 || r == 1000 || r == 2000 }
  predicate AccelResolution(r: int) { r == 2 || r == 4 || r == 8 || r == 16 }

  /** A configuration that a status payload can describe exactly. */
  predicate Describable(c: Config)
  {
    && c.magnetometerEnabled.Some? && c.gyroscopeEnabled.Some? && c.accelerometerEnabled.Some?
    && c.lowOutputRate.Some?
    && (c.gyroscopeResolution.Some? ==> GyroResolution(c.gyroscopeResolution.value))
    && (c.accelerometerResolution.Some? ==> AccelResolution(c.accelerometerResolution.value))
  }

  function Flag(b: bool, weight: nat): nat { if b then weight else 0 }

  function GyroNibble(r: Option<int>): (n: nat)
    ensures n < 16
  {
    match r
    case Some(2000) => 8
    case Some(1000) => 4
    case Some(500) => 2
    case Some(250) => 1
    case _ => 0
  }

  function AccelNibble(r: Option<int>): (n: nat)
    ensures n < 16
  {
    match r
    case Some(16) => 8
    case Some(8) => 4
    case Some(4) => 2
    case Some(2) => 1
    case _ => 0
  }

  /** The canonical status payload describing a configuration: one-hot
      resolution nibbles and every unused bit clear. */
  function EncodeStatus(c: Config): (p: seq<byte>)
    requires Describable(c)
    ensures |p| == 7
  {
    var s := c.streams;
    [ Flag(c.magnetometerEnabled.value, 4) + Flag(c.gyroscopeEnabled.value, 2) + Flag(c.accelerometerEnabled.value, 1),
      GyroNibble(c.gyroscopeResolution) * 16 + AccelNibble(c.accelerometerResolution),
      Flag(c.lowOutputRate.value, 1),
      0, 0, 0,
      StreamsByte(s) ]
  }

  /** The canonical byte of a set of streaming flags. */
  function StreamsByte(s: Streams): (b: byte)
  {
    Flag(s.heading, 64) + Flag(s.euler, 16) + Flag(s.magnetometer, 8)
      + Flag(s.quaternion, 4) + Flag(s.gyroscope, 2) + Flag(s.accelerometer, 1)
  }

  /** The streaming byte as six 0/1 digits at their weights. */
  lemma StreamsByteDigits(s: Streams)
    ensures var h, e, m := Flag(s.heading, 1), Flag(s.euler, 1), Flag(s.magnetometer, 1);
      var q, g, a := Flag(s.quaternion, 1), Flag(s.gyroscope, 1), Flag(s.accelerometer, 1);
      StreamsByte(s) == 64 * h + 16 * e + 8 * m + 4 * q + 2 * g + a
  {
  }

  /** A flag placed above a remainder that stays below its weight is read
      back by comparing the remainder with the weight. */
  lemma FlagAbove(b: bool, w: nat, low: nat, high: nat, x: nat, d: nat)
    requires w > 0 && low < w && d == 2 * w && x == high * d + Flag(b, 1) * w + low
    ensures (x % d >= w) == b
  {
    DivModUnique(x, d, high, Flag(b, 1) * w + low);
  }

  /** Each streaming flag is read back from its own bit of the byte. */
  lemma HeadingOfStreamsByte(s: Streams)
    ensures StreamsOf(StreamsByte(s)).heading == s.heading
  {
    var h, e, m := Flag(s.heading, 1), Flag(s.euler, 1), Flag(s.magnetometer, 1);
    var q, g, a := Flag(s.quaternion, 1), Flag(s.gyroscope, 1), Flag(s.accelerometer, 1);
    StreamsByteDigits(s);
    FlagAbove(s.heading, 64, 16 * e + 8 * m + 4 * q + 2 * g + a, 0, StreamsByte(s), 128);
  }

  lemma EulerOfStreamsByte(s: Streams)
    ensures StreamsOf(StreamsByte(s)).euler == s.euler
  {
    var h, e, m := Flag(s.heading, 1), Flag(s.euler, 1), Flag(s.magnetometer, 1);
    var q, g, a := Flag(s.quaternion, 1), Flag(s.gyroscope, 1), Flag(s.accelerometer, 1);
    StreamsByteDigits(s);
    FlagAbove(s.euler, 16, 8 * m + 4 * q + 2 * g + a, h * 2, StreamsByte(s), 32);
  }

  lemma MagnetometerOfStreamsByte(s: Streams)
    ensures StreamsOf(StreamsByte(s)).magnetometer == s.magnetometer
  {
    var h, e, m := Flag(s.heading, 1), Flag(s.euler, 1), Flag(s.magnetometer, 1);
    var q, g, a := Flag(s.quaternion, 1), Flag(s.gyroscope, 1), Flag(s.accelerometer, 1);
    StreamsByteDigits(s);
    FlagAbove(s.magnetometer, 8, 4 * q + 2 * g + a, h * 4 + e, StreamsByte(s), 16);
  }

  lemma QuaternionOfStreamsByte(s: Streams)
    ensures StreamsOf(StreamsByte(s)).quaternion == s.quaternion
  {
    var h, e, m := Flag(s.heading, 1), Flag(s.euler, 1), Flag(s.magnetometer, 1);
    var q, g, a := Flag(s.quaternion, 1), Flag(s.gyroscope, 1), Flag(s.accelerometer, 1);
    StreamsByteDigits(s);
    FlagAbove(s.quaternion, 4, 2 * g + a, h * 8 + e * 2 + m, StreamsByte(s), 8);
  }

  lemma GyroscopeOfStreamsByte(s: Streams)
    ensures StreamsOf(StreamsByte(s)).gyroscope == s.gyroscope
  {
    var h, e, m := Flag(s.heading, 1), Flag(s.euler, 1), Flag(s.magnetometer, 1);
    var q, g, a := Flag(s.quaternion, 1), Flag(s.gyroscope, 1), Flag(s.accelerometer, 1);
    StreamsByteDigits(s);
    FlagAbove(s.gyroscope, 2, a, h * 16 + e * 4 + m * 2 + q, StreamsByte(s), 4);
  }

  lemma AccelerometerOfStreamsByte(s: Streams)
    ensures StreamsOf(StreamsByte(s)).accelerometer == s.accelerometer
  {
    var h, e, m := Flag(s.heading, 1), Flag(s.euler, 1), Flag(s.magnetometer, 1);
    var q, g, a := Flag(s.quaternion, 1), Flag(s.gyroscope, 1), Flag(s.accelerometer, 1);
    StreamsByteDigits(s);
    DivModUnique(StreamsByte(s), 2, h * 32 + e * 8 + m * 4 + q * 2 + g, a);
  }

  lemma StreamsOfStreamsByte(s: Streams)
    ensures StreamsOf(StreamsByte(s)) == s
  {
    HeadingOfStreamsByte(s);
    EulerOfStreamsByte(s);
    MagnetometerOfStreamsByte(s);
    QuaternionOfStreamsByte(s);
    GyroscopeOfStreamsByte(s);
    AccelerometerOfStreamsByte(s);
  }

  /** The enable byte read back bit by bit. */
  lemma EnableByte(m: bool, g: bool, a: bool)
    ensures var x := Flag(m, 4) + Flag(g, 2) + Flag(a, 1);
      (x % 8 >= 4) == m && (x % 4 >= 2) == g && (x % 2 == 1) == a
  {
    var x := Flag(m, 4) + Flag(g, 2) + Flag(a, 1);
    var mi, gi, ai := Flag(m, 1), Flag(g, 1), Flag(a, 1);
    assert x == 4 * mi + 2 * gi + ai;
    FlagAbove(m, 4, 2 * gi + ai, 0, x, 8);
    FlagAbove(g, 2, ai, mi, x, 4);
    DivModUnique(x, 2, 2 * mi + gi, ai);
  }

  /** The resolution byte read back nibble by nibble. */
  lemma ResolutionByte(c: Config)
    requires Describable(c)
    ensures var x := GyroNibble(c.gyroscopeResolution) * 16 + AccelNibble(c.accelerometerResolution);
      x < 256 && GyroResolutionOf(x) == c.gyroscopeResolution && AccelResolutionOf(x) == c.accelerometerResolution
  {
    var x := GyroNibble(c.gyroscopeResolution) * 16 + AccelNibble(c.accelerometerResolution);
    DivModUnique(x, 16, GyroNibble(c.gyroscopeResolution), AccelNibble(c.accelerometerResolution));
  }

  lemma EnablesOfEncodeStatus(c: Config)
    requires Describable(c)
    ensures var d := ParseStatus(EncodeStatus(c)).value;
      && d.magnetometerEnabled == c.magnetometerEnabled
      && d.gyroscopeEnabled == c.gyroscopeEnabled
      && d.accelerometerEnabled == c.accelerometerEnabled
      && d.lowOutputRate == c.lowOutputRate
  {
    var p := EncodeStatus(c);
    var m, g, a := c.magnetometerEnabled.value, c.gyroscopeEnabled.value, c.accelerometerEnabled.value;
    assert p[0] == Flag(m, 4) + Flag(g, 2) + Flag(a, 1);
    assert p[2] == Flag(c.lowOutputRate.value, 1);
    EnableByte(m, g, a);
  }

  lemma ResolutionsOfEncodeStatus(c: Config)
    requires Describable(c)
    ensures var d := ParseStatus(EncodeStatus(c)).value;
      d.gyroscopeResolution == c.gyroscopeResolution && d.accelerometerResolution == c.accelerometerResolution
  {
    ResolutionByte(c);
  }

  lemma StreamsOfEncodeStatus(c: Config)
    requires Describable(c)
    ensures ParseStatus(EncodeStatus(c)).value.streams == c.streams
  {
    var p := EncodeStatus(c);
    assert BeU32(p[3..7]) == StreamsByte(c.streams);
    StreamsOfStreamsByte(c.streams);
  }

  /** Decoding the canonical payload of a configuration gives it back. */
  lemma ParseEncodeStatus(c: Config)
    requires Describable(c)
    ensures ParseStatus(EncodeStatus(c)) == Success(c)
  {
    EnablesOfEncodeStatus(c);
    ResolutionsOfEncodeStatus(c);
    StreamsOfEncodeStatus(c);
  }

  /** A status payload with all three sensors enabled, gyro resolution bit
      5 set (500), no accelerometer resolution bit, the low-output bit set
      and only gyro streaming on. */
  lemma ParseStatusExample()
    ensures ParseStatus([0x07, 0x20, 0x01, 0x00, 0x00, 0x00, 0x02])
      == Success(Config(Some(true), Some(true), Some(true), Some(500), None, Some(true),
                        Streams(false, false, false, false, true, false)))
  {
    var m: seq<byte> := [0x07, 0x20, 0x01, 0x00, 0x00, 0x00, 0x02];
    var c := ParseStatus(m).value;
    assert c.gyroscopeResolution == Some(500);
    assert c.accelerometerResolution == None;
  }
}
